=== FILE: README.md ===
# rkyv validation and niching core, modelled in Dafny

This project models three pieces of the rkyv zero-copy archive library and
its trait-object companion rkyv_dyn:

- **Trait-object metadata validation** (`rkyv_dyn/src/validation.rs`).
  `ArchivedDynMetadata::check_bytes` looks up an archived implementation id
  in the implementation registry. It accepts a cached vtable that is zero or
  that equals the registered vtable once truncated to `usize`; otherwise it
  reports a `DynMetadataError`. Both error messages are modelled as strings,
  and they can be parsed back into the error.
  The module also models the `CheckBytesRegistry` (`new`, `add_entry`, `get`,
  and the start-up loop that fills it), the `DynContext` forwarding impl, and
  the two `CHECK_BYTES_DYN` entry points. The forwarding impl turns any
  archive context into an object-safe one whose errors are boxed into
  `Box<dyn Error>`. The entry points are the "unimplemented" fallback and
  the one that delegates to the type's own `check_bytes`.
- **Niching** (`rkyv/src/impls/core/with/niching.rs`). These are the `Zero`
  nicher for archived non-zero integers, `NaN` for archived floats, `Bool`
  for `bool`, and `DefaultNicher`, which forwards to `Zero` or `Bool`. Also
  modelled is the composed impl that lets an outer nicher `N2` niche a
  `NichedOption<T, N1>` by reusing `N2`'s niche for `T`. Archived values
  are byte strings of the archived size in a chosen byte order. `is_niched`
  and `resolve_niched` act on those bytes and dispatch on the strategy. A
  two-field record stands for rkyv's `Nichable` test struct, which is niched
  through one field per strategy.
- **`VecDeque` bridge** (`rkyv/src/impls/std/collections/vec_deque.rs`). A
  `VecDeque` is modelled as a ring buffer with a head index. `as_slices`
  splits it into its two contiguous runs. Serialization follows `serialize`'s
  three branches (vec_deque.rs:61-72): the first slice only, the second slice only, or element by
  element through the iterator. Also modelled are `resolve`, the
  `PartialEq`/`PartialOrd` bridges to `ArchivedVec`, and `deserialize`. The
  last one includes the `Layout::array` overflow check, which can reject a
  too-long array before any element is read.

Modules: `Results` (Option/Result), `Bytes` (fixed-width integer encodings,
pointer widths), `Decimal` (decimal rendering and parsing of naturals, for
the `Display` impls), `DynMetadata`, `DynContext`, `CheckBytesRegistry`,
`Niching`, `VecDequeBridge`.

Integer conventions:
- `usize` is modelled with an explicit pointer width, 32 or 64 bits.
- `cached_vtable as usize` is `x % 2^w`.
- `isize::MAX` bounds every allocation layout.

## Model

| member | source | states |
|---|---|---|
| DynMetadata.CheckBytes | rkyv_dyn/src/validation.rs:387-419 | An id missing from the registry gives exactly `InvalidImplId(id)`. The check succeeds iff the id is registered and the cached vtable is 0 or, truncated to `usize`, equals the registered vtable. Success returns the input unchanged. Any other failure is `MismatchedCachedVtable` carrying the id, the registered vtable and the truncated cached value |
| DynMetadata.AsUsize | rkyv_dyn/src/validation.rs:407 | `as usize` keeps the low bits: the result is below 2^width and differs from the `u64` by a multiple of 2^width, which fixes it as `x mod 2^width`. On 64-bit targets it is the identity |
| DynMetadata.CheckedMetadataUsesRegisteredVtable | rkyv_dyn/src/validation.rs:399-408 | Metadata that passes the check has a registered id, and the vtable it will be used with is the registered one |
| DynMetadata.UnregisteredIgnoresCache | rkyv_dyn/src/validation.rs:399-418 | For an unregistered id, the outcome does not depend on the cached vtable field: the registry lookup decides before the cache is compared |
| DynMetadata.Describe | rkyv_dyn/src/validation.rs:360-377 | `Display for DynMetadataError`: the two message formats. Its partner is `ParseDescription`, and `DescriptionRoundTrip` proves they are inverse |
| DynMetadata.InvalidDescriptionRoundTrip | rkyv_dyn/src/validation.rs:363-365 | The "invalid impl id: {} not registered" message can be parsed back into the same `InvalidImplId` |
| DynMetadata.MismatchDescriptionRoundTrip | rkyv_dyn/src/validation.rs:366-374 | The "mismatched cached vtable for {}: expected {} but found {}" message can be parsed back into the same three fields |
| DynMetadata.DescriptionRoundTrip | rkyv_dyn/src/validation.rs:360-377 | The `Display` text of every `DynMetadataError` determines the error: parsing it gives the error back |
| DynContext.ForwardingIsFaithful | rkyv_dyn/src/validation.rs:135-209 | Each `*_dyn` forwarding method, issued on any context, leaves the same state as the underlying `ArchiveContext`/`SharedContext` method. It succeeds iff that method succeeds, with the same value. Its error is that method's error boxed into a `Box<dyn Error>` with the same message |
| DynContext.RunThroughDynAgrees | rkyv_dyn/src/validation.rs:135-280 | Any well-nested sequence of bounds checks, prefix/suffix range pushes and pops, `finish` and shared-pointer registrations gives the same final state and outputs through `dyn DynContext` as on the concrete context. The first error is the same error, erased to its message |
| DynContext.AsDyn | rkyv_dyn/src/validation.rs:135-209 | The `DynContext` forwarding impl: each `*_dyn` method calls the concrete context's method and boxes its error as `Box<dyn Error>`, keeping its message. Its contract is carried by `ForwardingIsFaithful` and `RunThroughDynAgrees` |
| DynContext.UnimplementedAlwaysFails | rkyv_dyn/src/validation.rs:282-303 | The fallback `check_bytes_dyn` fails on every input with "check bytes is not implemented for this type" and does not touch the context |
| DynContext.CallCheckBytesDyn | rkyv_dyn/src/validation.rs:294-303 | Calling a stored `CheckBytesDyn` entry point on a value's bytes and a context. The fallback `check_bytes_dyn_unimplemented` is the `Unimplemented` case. Its contract is carried by `UnimplementedAlwaysFails` and `ImplementedMatchesTypeCheck` |
| DynContext.IsCheckBytesDyn | rkyv_dyn/src/validation.rs:315-326 | `IsCheckBytesDyn::<T>::CHECK_BYTES_DYN`: runs `T::check_bytes`, drops the checked reference and boxes its error. Its contract is carried by `ImplementedMatchesTypeCheck` |
| DynContext.ImplementedMatchesTypeCheck | rkyv_dyn/src/validation.rs:312-327 | `IsCheckBytesDyn::check_bytes_dyn` succeeds iff the type's `check_bytes` does and leaves the same context state. On failure it reports that error's message |
| CheckBytesRegistry.New | rkyv_dyn/src/validation.rs:482-486 | A new registry has no entry for any vtable |
| CheckBytesRegistry.Get | rkyv_dyn/src/validation.rs:496-499 | `CheckBytesRegistry::get`: the validation registered for a vtable, if any. Its contract is carried by `New`, `AddEntry` and `Collect` |
| CheckBytesRegistry.AddEntry | rkyv_dyn/src/validation.rs:488-494 | After `add_entry`, `get` of the entry's vtable returns its validation and every other vtable's lookup is unchanged. The `conflict` flag holds iff the vtable was already present, which is exactly when the `debug_assert!` at line 493 fires |
| CheckBytesRegistry.DuplicateStep | rkyv_dyn/src/validation.rs:488-494 | Adding one more entry creates a duplicate iff there was one already or its vtable was among the earlier entries |
| CheckBytesRegistry.Collect | rkyv_dyn/src/validation.rs:502-511 | Filling the registry from all inventory entries raises `conflict` iff two entries share a vtable, which is when a debug build panics. It registers exactly the vtables of the entries, and each vtable maps to the validation of the last entry carrying it, which is the release-build result |
| Niching.IsNiched | rkyv/src/impls/core/with/niching.rs:29-31 | `is_niched` for each strategy (lines 29-31, 83-85, 106-108, 147-149): `Zero` tests the integer for 0, `NaN` tests for a NaN, `Bool` tests for a byte above 1, `DefaultNicher` forwards to `Zero` or `Bool` (lines 47-49, 122-124), and the composed impl tests the inner payload. Its contract is carried by `ZeroNichedIff`, `ResolveIsNiched`, `LegalNeverNiched`, `NestedReducesToBase` and `DefaultNicherDelegates` |
| Niching.ResolveNiched | rkyv/src/impls/core/with/niching.rs:33-35 | `resolve_niched` for each strategy (lines 33-35, 87-89, 110-112, 151-153) writes zero, `f32::NAN`/`f64::NAN` or the byte 2, with `DefaultNicher` forwarding (lines 51-53, 126-128). Its result always has the payload's size, and `ResolveIsNiched` proves it reads back as niched |
| Niching.NichedPtr | rkyv/src/impls/core/with/niching.rs:23-27 | `niched_ptr` always exists and its view lies inside the payload's bytes. Without records it points at the value itself, as a view of the same size (lines 23-27, 77-81, 102-104, 141-145) |
| Niching.ZeroNichedIff | rkyv/src/impls/core/with/niching.rs:29-31 | `Zero` finds an archived non-zero integer niched iff its signed or unsigned value is 0. Equivalently, iff all its bytes are zero |
| Niching.ResolveIsNiched | rkyv/src/impls/core/with/niching.rs:29-35 | For every strategy and every payload it implements (`Zero`, `NaN`, `Bool`, `DefaultNicher`, the composed impl and records), and in either byte order, `is_niched` holds on the bytes `resolve_niched` writes |
| Niching.NanBitsAreNaN | rkyv/src/impls/core/with/niching.rs:83-89 | The `f32::NAN` and `f64::NAN` bit patterns are NaNs: all-ones exponent and non-zero fraction |
| Niching.LegalNeverNiched | rkyv/src/impls/core/with/niching.rs:29-31 | No legal value of a payload without niched options is ever read as niched, by any strategy it implements. That covers a non-zero integer, a 0/1 bool, a non-NaN float and records of such fields (lines 83-85 and 106-108 for the other tests) |
| Niching.DefaultNicherDelegates | rkyv/src/impls/core/with/niching.rs:38-54 | At any nesting depth over a non-zero integer or a `bool`, wherever `DefaultNicher` is implemented, so is `Zero` or `Bool`. Its `Niched` view type (lines 39 and 116), `is_niched` and `resolve_niched` equal theirs. It niches a non-zero integer exactly at all-zero bytes and a `bool` exactly at a byte above 1 (lines 115-129 for `bool`) |
| Niching.NestedReducesToBase | rkyv/src/impls/core/with/niching.rs:133-154 | However deeply `NichedOption`s are nested, a strategy on the nested type has the innermost payload's size and view, and the same `is_niched` and `resolve_niched` |
| Niching.DefaultImplementedIff | rkyv/src/impls/core/with/niching.rs:38-39 | At any nesting depth over a non-zero integer or a `bool`, `DefaultNicher` is implemented exactly where `Zero` or `Bool` is, in both directions: each `impl_nonzero_zero_niching!` expansion and the `bool` block at lines 99-116 provide both impls |
| Niching.Implements | rkyv/src/impls/core/with/niching.rs:133-138 | Which `Niching` impls exist: `Zero` and `DefaultNicher` for non-zero integers (lines 20, 38), `NaN` for floats (line 74), `Bool` and `DefaultNicher` for `bool` (lines 99, 115), and for `NichedOption<T, N1>` any `N2` where both `N1` and `N2` niche `T` (lines 133-138). `SharedNiching` is the separate `SentinelsDistinct`. Its contract is carried by `NestedReducesToBase`, `DefaultNicherDelegates` and `DefaultImplementedIff` |
| Niching.NichedView | rkyv/src/impls/core/with/niching.rs:139 | The associated `type Niched` of each impl (lines 21, 39, 75, 100, 116, 139): the archived integer, the archived float, the raw byte, `Zero`'s or `Bool`'s for `DefaultNicher`, and the inner payload's for the composed impl. Its contract is carried by `NichedPtr` (its size fits the payload and equals it without records), `NestedReducesToBase` and `DefaultNicherDelegates` |
| Niching.OptionRoundTrip | rkyv/src/impls/core/with/niching.rs:29-35 | A niched option of a payload keeps the payload's size. Writing then reading gives `None` back for `None`, and the value back for any present value the nicher does not read as niched |
| Niching.PresentNaNReadsAbsent | rkyv/src/impls/core/with/niching.rs:319-322 | A present NaN float written with the `NaN` nicher reads back as `None` |
| Niching.NestedRoundTrip | rkyv/src/impls/core/with/niching.rs:133-154 | A nested `Option<Option<T>>` stored in `T`'s bytes (outer nicher `N2`, inner `N1`) keeps `T`'s size. `None` round-trips, and so does every present value that neither nicher reads as niched. `Some(None)` round-trips iff `N2` does not read `N1`'s sentinel as niched. The model calls that condition `SentinelsDistinct` and takes it as what a `SharedNiching<N1, N2>` impl must guarantee for the composed impl to be sound |
| Niching.PlainPayloadsCollide | rkyv/src/impls/core/with/niching.rs:133-138 | On a plain payload, any two nichers it implements have colliding sentinels: the outer one reads the inner sentinel as niched. So an inner `Some(None)` collapses to `None`, which is why the composed impl demands `SharedNiching` |
| Niching.RecordSentinelsDistinctIff | rkyv/src/impls/core/with/niching.rs:133-138 | On a two-field record, an outer strategy keeps apart the sentinel the other field's strategy writes iff zero bytes are not its own sentinel. Each order of the two strategies has its own condition |
| Niching.NichableNestedRoundTrip | rkyv/src/impls/core/with/niching.rs:175-198 | For `Middle.a` (`Nicher<Zero>` inside, `NaN` outside, over `Nichable`'s float and integer fields), the sentinels are distinct and every nested option round-trips, `Some(None)` included |
| Niching.NichableReversedCollapses | rkyv/src/impls/core/with/niching.rs:199 | For `Middle.b` (`Nicher<NaN>` inside, `Zero` outside), `Zero` still implements the nested option, but with the integer field zero-filled the inner sentinel reads as `Zero`'s. So the sentinels are not distinct and `Some(None)` reads back as `None` |
| VecDequeBridge.AsSlices | rkyv/src/impls/std/collections/vec_deque.rs:61 | The two slices concatenate to the deque's elements in order, and the first is empty only when the second is too |
| VecDequeBridge.PushBack | rkyv/src/impls/std/collections/vec_deque.rs:131-133 | `push_back` below capacity appends the element at the back and keeps the head |
| VecDequeBridge.PushFront | rkyv/src/impls/std/collections/vec_deque.rs:134-136 | `push_front` below capacity prepends the element and moves the head back one slot, wrapping at 0 |
| VecDequeBridge.TryMap | rkyv/src/impls/std/collections/vec_deque.rs:63 | Serializing a slice succeeds iff every element serializes, each output is the resolver of its element, and a failure is some element's error |
| VecDequeBridge.TryMapUnique | rkyv/src/impls/std/collections/vec_deque.rs:63 | Any result that meets that contract and reports the first failure is the slice serialization itself |
| VecDequeBridge.SerializeFromIter | rkyv/src/impls/std/collections/vec_deque.rs:67-70 | Walking the deque with its iterator serializes the elements in deque order. On failure it reports an element's error |
| VecDequeBridge.Serialize | rkyv/src/impls/std/collections/vec_deque.rs:57-72 | Whichever of the three branches runs, the outcome equals serializing the deque's elements as one slice, in order |
| VecDequeBridge.Resolve | rkyv/src/impls/std/collections/vec_deque.rs:41-48 | The archived vector records the deque's length, and its relative offset from `pos` reaches the serialized run |
| VecDequeBridge.ResolveDescribesRun | rkyv/src/impls/std/collections/vec_deque.rs:41-48 | The header `resolve` writes matches the run `serialize` wrote: its length is the number of archived elements, and its offset from `pos` reaches the run |
| VecDequeBridge.IterEqIff | rkyv/src/impls/std/collections/vec_deque.rs:14 | `Iterator::eq` holds iff both sequences have the same length and the elements are pairwise equal |
| VecDequeBridge.ArchivedEqDeque | rkyv/src/impls/std/collections/vec_deque.rs:11-16 | `PartialEq<VecDeque<U>> for ArchivedVec<T>`: equal lengths and `Iterator::eq` over the deque's elements. Its contract is carried by `ArchivedDequeEqIff` |
| VecDequeBridge.DequeEqArchived | rkyv/src/impls/std/collections/vec_deque.rs:17-22 | `PartialEq<ArchivedVec<U>> for VecDeque<T>`, the mirror impl. Its contract is carried by `ArchivedDequeEqIff` |
| VecDequeBridge.ArchivedDequeEqIff | rkyv/src/impls/std/collections/vec_deque.rs:11-22 | `ArchivedVec == VecDeque` holds iff the lengths agree and the elements are pairwise equal in deque order. Both directions agree when the element equalities are mirror images |
| VecDequeBridge.IterCmpLexicographic | rkyv/src/impls/std/collections/vec_deque.rs:26 | `Iterator::partial_cmp` is decided by the first position whose comparison is not `Some(Equal)`, and by the lengths when one sequence is a prefix of the other |
| VecDequeBridge.FirstDifferenceExists | rkyv/src/impls/std/collections/vec_deque.rs:26 | Every pair of sequences has such a deciding position |
| VecDequeBridge.IterCmpReverse | rkyv/src/impls/std/collections/vec_deque.rs:23-34 | With an antisymmetric element comparison, swapping the operands reverses the ordering |
| VecDequeBridge.ArchivedCmpDeque | rkyv/src/impls/std/collections/vec_deque.rs:23-28 | `PartialOrd<VecDeque<T>> for ArchivedVec<T>`: `Iterator::partial_cmp` over the deque's elements. Its contract is carried by `ArchivedDequeCmp` and `DequeCmpReversesArchived` |
| VecDequeBridge.DequeCmpArchived | rkyv/src/impls/std/collections/vec_deque.rs:29-34 | `PartialOrd<ArchivedVec<T>> for VecDeque<T>`, the mirror impl. Its contract is carried by `ArchivedDequeCmp` and `DequeCmpReversesArchived` |
| VecDequeBridge.ArchivedDequeCmp | rkyv/src/impls/std/collections/vec_deque.rs:23-34 | `ArchivedVec` vs `VecDeque` is lexicographic over the deque's elements: the first position whose comparison is not `Some(Equal)` decides, otherwise the lengths do |
| VecDequeBridge.DequeCmpReversesArchived | rkyv/src/impls/std/collections/vec_deque.rs:23-34 | When the element comparison is dual (`cmp(y, x)` reverses `cmp(x, y)`), the `VecDeque` vs `ArchivedVec` direction gives the reverse of the other direction |
| VecDequeBridge.FromVec | rkyv/src/impls/std/collections/vec_deque.rs:99 | `VecDeque::from(Vec)` is a valid deque whose elements are the vector's, in order |
| VecDequeBridge.Deserialize | rkyv/src/impls/std/collections/vec_deque.rs:83-100 | Deserialization fails with the layout error iff `Layout::array` overflows `isize::MAX` for that length. Otherwise it fails with the error of the first element that fails to deserialize, earlier elements having succeeded, or it yields a deque whose elements deserialize pairwise from the archived ones |
| VecDequeBridge.RoundTrip | rkyv/src/impls/std/collections/vec_deque.rs:159-162 | When element deserialization inverts element serialization and the layout fits, deserializing a serialized deque gives back a deque with the same elements |
| VecDequeBridge.PushBackRange | rkyv/src/impls/std/collections/vec_deque.rs:131-133 | Pushing `k..n` at the back appends exactly that range |
| VecDequeBridge.PushFrontDown | rkyv/src/impls/std/collections/vec_deque.rs:134-136 | Pushing `(0..k).rev()` at the front prepends `0..k` and moves the head back `k` slots, wrapping around |
| VecDequeBridge.SplitDeque | rkyv/src/impls/std/collections/vec_deque.rs:130-136 | The test's deque of capacity `n + 1` holds `0..k` followed by `k..n`, with its head `k` slots before the end |
| VecDequeBridge.SplitDequeSerializes | rkyv/src/impls/std/collections/vec_deque.rs:118-157 | For `1 <= k < n`, the deque holds `0..n`, its slices are `0..k` and `k..n`, and it serializes to `0..n` |
| Bytes.EncodeRoundTrip | rkyv/src/impls/core/with/niching.rs:33-35 | A value written as `width` bytes in either byte order reads back as the same value |
| Bytes.UnsignedZeroIff | rkyv/src/impls/core/with/niching.rs:29-31 | A little- or big-endian integer is 0 iff all its bytes are zero |
| Bytes.SignedZeroIff | rkyv/src/impls/core/with/niching.rs:64-68 | A two's-complement integer is 0 iff all its bytes are zero |
| Decimal.ParseNatRoundTrip | rkyv_dyn/src/validation.rs:364 | A natural formatted with `{}` and followed by a non-digit parses back to the same natural and the same rest |

## Left out

- Erased errors: a `Box<dyn Error>` is reduced to its `Display` message.
  Its `Debug` output, `source()` chain and downcasting are not modelled.
- Where the registries live: `lazy_static` and `inventory`. `IMPL_REGISTRY` and
  the inventory are plain parameters, and the order of the inventory entries
  is an input.
- The `vtable_cache` feature's atomic load of the cached vtable: a `Relaxed`
  load of the same `u64` gives the same value in a sequential model.
- The `u64` and `PhantomData` field checks in `check_bytes`: their error
  type is `Infallible` (rkyv_dyn/src/validation.rs:381-385), so they never
  fail.
- `CheckDynError` and `CheckBytesEntry::new`
  (rkyv_dyn/src/validation.rs:422-472): these are thin error and entry
  wrappers with no logic of their own.
- The `Box<dyn Any>` downcast in `pop_prefix_range`/`pop_suffix_range`
  (rkyv_dyn/src/validation.rs:251-265): the model keeps ranges typed, so the
  downcast always succeeds. A panic on a foreign range is not modelled.
- Raw pointers, `unsafe` casts and `alloc::alloc`: archived values are byte
  strings, and the allocation step yields the elements directly.
- `ArchivedVec::resolve_from_len`, `serialize_from_slice` and
  `serialize_from_iter` are not part of this model. Their effect is stated
  as the archived vector's length, its relative offset, and the
  element-wise serialization.
- VecDequeBridge.PushBack: pushing onto a full deque reallocates in Rust.
  The model requires spare capacity, as the test's `with_capacity(n + 1)`
  guarantees.
- VecDequeBridge.PushFront: same capacity restriction as `PushBack`.
- Niching.ResolveIsNiched: the `NaN` constant bit patterns `0x7FC0_0000` and
  `0x7FF8_0000_0000_0000` are taken as the values of `f32::NAN` and
  `f64::NAN`. Float arithmetic is not modelled, only the IEEE 754 bit-level
  NaN test.
- CheckBytesRegistry.Collect: the `debug_assert!` at
  rkyv_dyn/src/validation.rs:493 panics at the first duplicate vtable in a
  debug build, which aborts the registry's initialisation, and does nothing
  in a release build. The model raises a `conflict` flag and carries on.
  So `conflict` is the debug-build panic condition, and last-entry-wins
  describes the release-build registry.
- CheckBytesRegistry.AddEntry: the same flag stands for the same panic.
- Vtable addresses (`ImplData.vtable`, `CheckBytesEntry.vtable`) are
  unbounded naturals, not `usize`. A registered vtable outside `usize`
  range can never equal a truncated cached vtable, so `CheckBytes` rejects
  a non-zero cache against it.
- DynMetadata.CheckedMetadataUsesRegisteredVtable: the code that reads a
  checked value's vtable is outside validation.rs and is not part of this
  model. `EffectiveVtable` assumes it takes a non-zero cached vtable, and
  otherwise the registry's.
- Niching records: the derived `Niching` impls for structs are not part of
  this model. A record is niched through one field per strategy. Its
  `resolve_niched` writes that field's sentinel. The other field's bytes
  are assumed to be zero, which is what zero-initialised memory holds; the
  serializer that provides that memory is not part of this model. Its
  niched view is
  the field's. Field padding and fields without a niche are not modelled.
- Niching.NestedRoundTrip: the `SharedNiching` trait's impls are not part
  of this model. The bound is stated by what it guarantees: the outer
  nicher does not read the inner sentinel as niched. On plain payloads no
  pair of this file's strategies meets it (`PlainPayloadsCollide`). On the
  record `Nichable` it holds in only one order. `Middle.a` (`Zero` inside,
  `NaN` outside) meets it (`NichableNestedRoundTrip`). `Middle.b` (`NaN`
  inside, `Zero` outside, niching.rs:199) does not
  (`NichableReversedCollapses`): its inner sentinel leaves the integer
  field zero-filled, and `Zero` reads that as its own sentinel. Whether
  rkyv's derived impls write that field otherwise is outside this model. So
  this is recorded as a consequence of the zero-fill assumption, not as a
  defect in rkyv. The niching test never stores `Some(None)` in `Middle.b`.
- niching.rs has no `DefaultNicher` impl for floats. Floats are niched only
  with an explicit `NaN` nicher, and the model follows that.
- The derived `Archive` impls of the niching tests' structs beyond the
  two-field record, `Nichable`'s `bool` field, and
  `examples/backwards_compat`, which are outside the three modelled files.

=== FILE: bytes.dfy ===
/** Bytes of an archive and the fixed-width integers stored in them. */
module Bytes {

  /** A byte of the archive, as the unsigned value it holds. */
  type Byte = b: int | 0 <= b < 256

  /** The byte order archived primitives are stored in. */
  datatype Endian = Little | Big

  /** 256 to the power `n`: one more than the largest `n`-byte unsigned value. */
  function Pow256(n: nat): (r: nat)
    ensures r >= 1
  {
    if n == 0 then 1 else 256 * Pow256(n - 1)
  }

  function Reverse<T>(s: seq<T>): (r: seq<T>)
    ensures |r| == |s|
    ensures forall i :: 0 <= i < |s| ==> r[i] == s[|s| - 1 - i]
  {
    if |s| == 0 then [] else Reverse(s[1..]) + [s[0]]
  }

  /** The bytes reordered so that the most significant one comes first. */
  function MostSignificantFirst(b: seq<Byte>, e: Endian): (r: seq<Byte>)
    ensures |r| == |b|
  {
    if e == Big then b else Reverse(b)
  }

  /** Value of bytes read most significant first. */
  function BigEndianValue(b: seq<Byte>): nat
  {
    if |b| == 0 then 0 else BigEndianValue(b[..|b| - 1]) * 256 + b[|b| - 1]
  }

  /** The bytes of `x`, most significant first, in exactly `width` bytes. */
  function BigEndianBytes(x: nat, width: nat): (r: seq<Byte>)
    requires x < Pow256(width)
    ensures |r| == width
  {
    if width == 0 then [] else BigEndianBytes(x / 256, width - 1) + [x % 256]
  }

  /** The unsigned integer an archived value of `|b|` bytes holds. */
  function Unsigned(b: seq<Byte>, e: Endian): nat
  {
    BigEndianValue(MostSignificantFirst(b, e))
  }

  /** The two's-complement signed integer an archived value of `|b|` bytes holds. */
  function Signed(b: seq<Byte>, e: Endian): int
  {
    var u := Unsigned(b, e);
    if 2 * u >= Pow256(|b|) then u - Pow256(|b|) else u
  }

  /** Writing an unsigned value as an archived integer of `width` bytes. */
  function Encode(x: nat, width: nat, e: Endian): (r: seq<Byte>)
    requires x < Pow256(width)
    ensures |r| == width
  {
    var big := BigEndianBytes(x, width);
    if e == Big then big else Reverse(big)
  }

  predicate AllZero(b: seq<Byte>)
  {
    forall i :: 0 <= i < |b| ==> b[i] == 0
  }

  /** `n` zero bytes: what zero-initialised memory holds. */
  function Zeros(n: nat): (r: seq<Byte>)
    ensures |r| == n && AllZero(r)
  {
    seq(n, _ => 0)
  }

  lemma ReverseReverse<T>(s: seq<T>)
    ensures Reverse(Reverse(s)) == s
  {
  }

  lemma {:induction false} BigEndianValueBound(b: seq<Byte>)
    ensures BigEndianValue(b) < Pow256(|b|)
  {
    if |b| > 0 {
      BigEndianValueBound(b[..|b| - 1]);
    }
  }

  lemma QuotientBound(x: nat, p: nat)
    requires x < 256 * p
    ensures x / 256 < p
  {
  }

  lemma {:induction false} BigEndianRoundTrip(x: nat, width: nat)
    requires x < Pow256(width)
    ensures BigEndianValue(BigEndianBytes(x, width)) == x
  {
    if width > 0 {
      var q, m := x / 256, x % 256;
      QuotientBound(x, Pow256(width - 1));
      var r := BigEndianBytes(x, width);
      assert r[..width - 1] == BigEndianBytes(q, width - 1);
      assert r[width - 1] == m;
      BigEndianRoundTrip(q, width - 1);
      assert BigEndianValue(r) == q * 256 + m;
    }
  }

  /** Reading back an encoded integer gives the integer: the archived form of
      an integer is lossless for values that fit its width. */
  lemma EncodeRoundTrip(x: nat, width: nat, e: Endian)
    requires x < Pow256(width)
    ensures Unsigned(Encode(x, width, e), e) == x
  {
    ReverseReverse(BigEndianBytes(x, width));
    BigEndianRoundTrip(x, width);
  }

  lemma UnsignedBound(b: seq<Byte>, e: Endian)
    ensures Unsigned(b, e) < Pow256(|b|)
  {
    BigEndianValueBound(MostSignificantFirst(b, e));
  }

  lemma {:induction false} BigEndianZeroIff(b: seq<Byte>)
    ensures BigEndianValue(b) == 0 <==> AllZero(b)
  {
    if |b| > 0 {
      var init := b[..|b| - 1];
      BigEndianZeroIff(init);
      if AllZero(b) {
        assert AllZero(init);
      } else if AllZero(init) {
        assert b[|b| - 1] != 0;
      }
    }
  }

  /** An archived integer is zero exactly when all its bytes are zero, in
      either byte order. */
  lemma UnsignedZeroIff(b: seq<Byte>, e: Endian)
    ensures Unsigned(b, e) == 0 <==> AllZero(b)
  {
    var m := MostSignificantFirst(b, e);
    BigEndianZeroIff(m);
    assert AllZero(m) <==> AllZero(b) by {
      if e == Little {
        if AllZero(m) {
          forall i | 0 <= i < |b| ensures b[i] == 0 {
            assert m[|b| - 1 - i] == b[i];
          }
        }
      }
    }
  }

  /** Signed and unsigned readings agree on zero. */
  lemma SignedZeroIff(b: seq<Byte>, e: Endian)
    ensures Signed(b, e) == 0 <==> AllZero(b)
  {
    UnsignedBound(b, e);
    UnsignedZeroIff(b, e);
  }

  lemma EncodeZeroIsAllZero(width: nat, e: Endian)
    ensures AllZero(Encode(0, width, e))
  {
    EncodeRoundTrip(0, width, e);
    UnsignedZeroIff(Encode(0, width, e), e);
  }

  /** Target pointer width: the range of `usize` and `isize`. */
  datatype PointerWidth = Bits32 | Bits64

  function UsizeBound(w: PointerWidth): nat
  {
    if w == Bits32 then 0x1_0000_0000 else 0x1_0000_0000_0000_0000
  }

  /** `isize::MAX`. */
  function IsizeMax(w: PointerWidth): nat
  {
    if w == Bits32 then 0x7FFF_FFFF else 0x7FFF_FFFF_FFFF_FFFF
  }
}

=== FILE: check_bytes_registry.dfy ===
/** `CheckBytesRegistry` (rkyv_dyn/src/validation.rs): the table from an
    implementation's vtable address to how its bytes are validated. */
module CheckBytesRegistry {
  import opened Results
  import opened DynContext

  /** `ImplValidation`: the implementation's layout and its byte-check entry
      point, for dynamic contexts of state `S`. */
  datatype ImplValidation<!S> = ImplValidation(layout: Layout, checkBytesDyn: CheckBytesDyn<S>)

  /** `CheckBytesEntry`: one registration. */
  datatype CheckBytesEntry<!S> = CheckBytesEntry(vtable: nat, validation: ImplValidation<S>)

  datatype Registry<!S> = Registry(vtableToCheckBytes: map<nat, ImplValidation<S>>)

  /** `CheckBytesRegistry::new`. */
  function New<S>(): (r: Registry<S>)
    ensures forall vtable: nat :: Get(r, vtable) == None
  {
    Registry(map[])
  }

  /** `CheckBytesRegistry::get`. */
  function Get<S>(r: Registry<S>, vtable: nat): Option<ImplValidation<S>>
  {
    if vtable in r.vtableToCheckBytes then Some(r.vtableToCheckBytes[vtable]) else None
  }

  /** The registry after an insertion, and whether the insertion replaced an
      earlier entry: the vtable conflict the debug assertion reports. */
  datatype Added<!S> = Added(registry: Registry<S>, conflict: bool)

  /** `CheckBytesRegistry::add_entry`: the entry's vtable now maps to its
      validation, every other vtable is untouched, and a conflict is flagged
      exactly when the vtable was already present. */
  function AddEntry<S>(r: Registry<S>, entry: CheckBytesEntry<S>): (a: Added<S>)
    ensures Get(a.registry, entry.vtable) == Some(entry.validation)
    ensures forall v :: v != entry.vtable ==> Get(a.registry, v) == Get(r, v)
    ensures a.conflict <==> Get(r, entry.vtable).Some?
  {
    Added(Registry(r.vtableToCheckBytes[entry.vtable := entry.validation]), entry.vtable in r.vtableToCheckBytes)
  }

  /** Two of the first `k` entries have the same vtable. */
  predicate DuplicateBefore<S>(entries: seq<CheckBytesEntry<S>>, k: nat)
    requires k <= |entries|
  {
    exists i, j :: 0 <= i < j < k && entries[i].vtable == entries[j].vtable
  }

  /** One of the first `k` entries has vtable `v`. */
  predicate RegisteredBefore<S>(entries: seq<CheckBytesEntry<S>>, k: nat, v: nat)
    requires k <= |entries|
  {
    exists i :: 0 <= i < k && entries[i].vtable == v
  }

  /** Entry `i` is the last of the first `k` with its vtable. */
  predicate LastBefore<S>(entries: seq<CheckBytesEntry<S>>, k: nat, i: nat)
    requires i < k <= |entries|
  {
    forall j :: i < j < k ==> entries[j].vtable != entries[i].vtable
  }

  lemma DuplicateStep<S>(entries: seq<CheckBytesEntry<S>>, k: nat)
    requires k < |entries|
    ensures DuplicateBefore(entries, k + 1) <==> DuplicateBefore(entries, k) || RegisteredBefore(entries, k, entries[k].vtable)
  {
    if DuplicateBefore(entries, k + 1) && !DuplicateBefore(entries, k) {
      var i, j :| 0 <= i < j < k + 1 && entries[i].vtable == entries[j].vtable;
      assert j == k;
    }
  }

  /** Filling the registry with every registration, one `add_entry` after
      another. A vtable maps to the validation of the last entry with that
      vtable, only registered vtables are present, and a conflict is seen
      exactly when two registrations share a vtable. */
  method Collect<S>(entries: seq<CheckBytesEntry<S>>) returns (r: Registry<S>, conflict: bool)
    ensures conflict <==> DuplicateBefore(entries, |entries|)
    ensures forall v: nat :: Get(r, v).Some? <==> RegisteredBefore(entries, |entries|, v)
    ensures forall i :: 0 <= i < |entries| && LastBefore(entries, |entries|, i) ==>
      Get(r, entries[i].vtable) == Some(entries[i].validation)
  {
    r := New();
    conflict := false;
    var k := 0;
    while k < |entries|
      invariant 0 <= k <= |entries|
      invariant conflict <==> DuplicateBefore(entries, k)
      invariant forall v: nat :: Get(r, v).Some? <==> RegisteredBefore(entries, k, v)
      invariant forall i :: 0 <= i < k && LastBefore(entries, k, i) ==>
        Get(r, entries[i].vtable) == Some(entries[i].validation)
    {
      var added := AddEntry(r, entries[k]);
      DuplicateStep(entries, k);
      assert forall i :: 0 <= i < k && LastBefore(entries, k + 1, i) ==> LastBefore(entries, k, i);
      r, conflict := added.registry, conflict || added.conflict;
      k := k + 1;
    }
  }
}

=== FILE: decimal.dfy ===
/** Decimal text of unsigned integers, as Rust's `{}` formats them, and the
    parse that reads it back. */
module Decimal {
  import opened Results

  predicate IsDigit(c: char)
  {
    '0' <= c <= '9'
  }

  predicate AllDigits(s: string)
  {
    forall i :: 0 <= i < |s| ==> IsDigit(s[i])
  }

  function DigitChar(d: nat): (c: char)
    requires d < 10
    ensures IsDigit(c) && c as int - '0' as int == d
  {
    ('0' as int + d) as char
  }

  /** `{}` on an unsigned integer: its decimal digits, without leading zeros. */
  function NatToString(n: nat): (s: string)
    ensures |s| >= 1 && AllDigits(s)
    decreases n
  {
    if n < 10 then [DigitChar(n)] else NatToString(n / 10) + [DigitChar(n % 10)]
  }

  function DigitsValue(s: string): nat
    requires AllDigits(s)
  {
    if |s| == 0 then 0 else DigitsValue(s[..|s| - 1]) * 10 + (s[|s| - 1] as int - '0' as int)
  }

  lemma {:induction false} NatToStringValue(n: nat)
    ensures DigitsValue(NatToString(n)) == n
    decreases n
  {
    if n >= 10 {
      var s := NatToString(n);
      assert s[..|s| - 1] == NatToString(n / 10);
      NatToStringValue(n / 10);
    }
  }

  /** The number of digits `s` starts with. */
  function LeadingDigits(s: string): (k: nat)
    ensures k <= |s| && AllDigits(s[..k])
    ensures k < |s| ==> !IsDigit(s[k])
  {
    if |s| == 0 || !IsDigit(s[0]) then 0
    else
      var k := 1 + LeadingDigits(s[1..]);
      assert s[..k] == [s[0]] + s[1..][..k - 1];
      k
  }

  /** Reads a decimal number off the front of `s`, returning it and the text
      after it. */
  function ParseNat(s: string): Option<(nat, string)>
  {
    var k := LeadingDigits(s);
    if k == 0 then None else Some((DigitsValue(s[..k]), s[k..]))
  }

  lemma {:induction false} LeadingDigitsOfNumber(d: string, rest: string)
    requires AllDigits(d)
    requires |rest| == 0 || !IsDigit(rest[0])
    ensures LeadingDigits(d + rest) == |d|
  {
    if |d| > 0 {
      assert (d + rest)[1..] == d[1..] + rest;
      LeadingDigitsOfNumber(d[1..], rest);
    }
  }

  /** Parsing the formatted number back, followed by any text that does not
      start with a digit, recovers the number and that text. */
  lemma ParseNatRoundTrip(n: nat, rest: string)
    requires |rest| == 0 || !IsDigit(rest[0])
    ensures ParseNat(NatToString(n) + rest) == Some((n, rest))
  {
    var d := NatToString(n);
    LeadingDigitsOfNumber(d, rest);
    assert (d + rest)[..|d|] == d && (d + rest)[|d|..] == rest;
    NatToStringValue(n);
  }
}

=== FILE: dyn_context.dfy ===
/** The object-safe validation context of rkyv_dyn/src/validation.rs: a
    blanket `DynContext` impl that forwards every operation of a concrete
    validation context and erases its error type, and the entry points that
    check the bytes of one registered implementation through it. */
module DynContext {
  import opened Results

  /** An address in the archive (`*const u8`). */
  type Addr = int

  /** `core::alloc::Layout`. */
  datatype Layout = Layout(size: nat, align: nat)

  /** `core::any::TypeId`, compared only for equality. */
  type TypeId = nat

  /** `Box<dyn Error>`, modelled by its `Display` text. */
  datatype DynError = DynError(message: string)

  /** An operation's effect on a context of state `S`: the new state and the
      operation's result. */
  datatype Step<S, T, E> = Step(state: S, result: Result<T, E>)

  /** A validation context (`ArchiveContext + SharedContext`) with state `S`,
      prefix ranges `P`, suffix ranges `Q` and error `E`, given by its
      operations; `display` is the error's `Display`. */
  datatype ArchiveContext<!S, !P, !Q, !E> = ArchiveContext(
    boundsCheckPtr: (S, Addr, int) -> Step<S, Addr, E>,
    boundsCheckLayout: (S, Addr, Layout) -> Step<S, (), E>,
    boundsCheckSubtreePtrLayout: (S, Addr, Layout) -> Step<S, (), E>,
    pushPrefixSubtreeRange: (S, Addr, Addr) -> Step<S, P, E>,
    popPrefixRange: (S, P) -> Step<S, (), E>,
    pushSuffixSubtreeRange: (S, Addr, Addr) -> Step<S, Q, E>,
    popSuffixRange: (S, Q) -> Step<S, (), E>,
    finish: S -> Step<S, (), E>,
    registerSharedPtr: (S, Addr, TypeId) -> Step<S, bool, E>,
    display: E -> string)

  /** `Box::new(e) as Box<dyn Error>`. */
  function Erase<E>(display: E -> string, e: E): DynError
  {
    DynError(display(e))
  }

  /** `.map_err(|e| Box::new(e) as Box<dyn Error>)` on an operation. */
  function EraseStep<S, T, E>(st: Step<S, T, E>, display: E -> string): Step<S, T, DynError>
  {
    Step(st.state, st.result.MapErr(e => Erase(display, e)))
  }

  function DynDisplay(e: DynError): string
  {
    e.message
  }

  /** `impl<C: ArchiveContext + SharedContext> DynContext for C`: every
      `_dyn` operation calls the concrete one and erases its error. Ranges,
      boxed as `Box<dyn Any>` on the way out and downcast on the way back,
      are passed through as they are. `ArchiveContext for dyn DynContext`
      forwards back to these operations unchanged. */
  function AsDyn<S, P, Q, E>(c: ArchiveContext<S, P, Q, E>): ArchiveContext<S, P, Q, DynError>
  {
    ArchiveContext(
      (s, base, offset) => EraseStep(c.boundsCheckPtr(s, base, offset), c.display),
      (s, addr, layout) => EraseStep(c.boundsCheckLayout(s, addr, layout), c.display),
      (s, addr, layout) => EraseStep(c.boundsCheckSubtreePtrLayout(s, addr, layout), c.display),
      (s, root, end) => EraseStep(c.pushPrefixSubtreeRange(s, root, end), c.display),
      (s, range) => EraseStep(c.popPrefixRange(s, range), c.display),
      (s, start, root) => EraseStep(c.pushSuffixSubtreeRange(s, start, root), c.display),
      (s, range) => EraseStep(c.popSuffixRange(s, range), c.display),
      s => EraseStep(c.finish(s), c.display),
      (s, ptr, typeId) => EraseStep(c.registerSharedPtr(s, ptr, typeId), c.display),
      DynDisplay)
  }

  // ----- Driving a context -----

  /** One call a type's byte check makes on its context. A pop gives back
      the most recently pushed range of its kind. */
  datatype Command =
    | BoundsCheckPtr(base: Addr, offset: int)
    | BoundsCheckLayout(addr: Addr, layout: Layout)
    | BoundsCheckSubtreePtrLayout(dataAddr: Addr, subtreeLayout: Layout)
    | PushPrefixSubtreeRange(root: Addr, end: Addr)
    | PopPrefixRange
    | PushSuffixSubtreeRange(start: Addr, suffixRoot: Addr)
    | PopSuffixRange
    | Finish
    | RegisterSharedPtr(ptr: Addr, typeId: TypeId)

  /** What a successful call returned to the caller. */
  datatype Output = Target(addr: Addr) | Done | Pushed | FirstVisit(first: bool)

  /** The context's state together with the ranges the caller holds. */
  datatype Config<S, P, Q> = Config(state: S, prefixes: seq<P>, suffixes: seq<Q>)

  /** Whether `cmd` can be issued: a pop needs a range of its kind. */
  predicate CanIssue<S, P, Q>(cfg: Config<S, P, Q>, cmd: Command)
  {
    && (cmd.PopPrefixRange? ==> |cfg.prefixes| > 0)
    && (cmd.PopSuffixRange? ==> |cfg.suffixes| > 0)
  }

  /** Issuing one command: the call's output and the caller's new
      configuration, or the call's error. */
  function Issue<S, P, Q, E>(c: ArchiveContext<S, P, Q, E>, cfg: Config<S, P, Q>, cmd: Command)
    : Step<Config<S, P, Q>, Output, E>
    requires CanIssue(cfg, cmd)
  {
    var s := cfg.state;
    match cmd
    case BoundsCheckPtr(base, offset) =>
      var st := c.boundsCheckPtr(s, base, offset);
      Step(cfg.(state := st.state), match st.result case Ok(a) => Ok(Target(a)) case Err(e) => Err(e))
    case BoundsCheckLayout(addr, layout) =>
      var st := c.boundsCheckLayout(s, addr, layout);
      Step(cfg.(state := st.state), match st.result case Ok(_) => Ok(Done) case Err(e) => Err(e))
    case BoundsCheckSubtreePtrLayout(addr, layout) =>
      var st := c.boundsCheckSubtreePtrLayout(s, addr, layout);
      Step(cfg.(state := st.state), match st.result case Ok(_) => Ok(Done) case Err(e) => Err(e))
    case PushPrefixSubtreeRange(root, end) =>
      var st := c.pushPrefixSubtreeRange(s, root, end);
      (match st.result
       case Ok(range) => Step(Config(st.state, cfg.prefixes + [range], cfg.suffixes), Ok(Pushed))
       case Err(e) => Step(cfg.(state := st.state), Err(e)))
    case PopPrefixRange =>
      var st := c.popPrefixRange(s, cfg.prefixes[|cfg.prefixes| - 1]);
      var rest := Config(st.state, cfg.prefixes[..|cfg.prefixes| - 1], cfg.suffixes);
      Step(rest, match st.result case Ok(_) => Ok(Done) case Err(e) => Err(e))
    case PushSuffixSubtreeRange(start, root) =>
      var st := c.pushSuffixSubtreeRange(s, start, root);
      (match st.result
       case Ok(range) => Step(Config(st.state, cfg.prefixes, cfg.suffixes + [range]), Ok(Pushed))
       case Err(e) => Step(cfg.(state := st.state), Err(e)))
    case PopSuffixRange =>
      var st := c.popSuffixRange(s, cfg.suffixes[|cfg.suffixes| - 1]);
      var rest := Config(st.state, cfg.prefixes, cfg.suffixes[..|cfg.suffixes| - 1]);
      Step(rest, match st.result case Ok(_) => Ok(Done) case Err(e) => Err(e))
    case Finish =>
      var st := c.finish(s);
      Step(cfg.(state := st.state), match st.result case Ok(_) => Ok(Done) case Err(e) => Err(e))
    case RegisterSharedPtr(ptr, typeId) =>
      var st := c.registerSharedPtr(s, ptr, typeId);
      Step(cfg.(state := st.state), match st.result case Ok(b) => Ok(FirstVisit(b)) case Err(e) => Err(e))
  }

  /** Each forwarding operation leaves the context exactly as the concrete
      one does, returns its value unchanged on success, and fails exactly
      when it fails, with the concrete error's message. */
  lemma ForwardingIsFaithful<S, P, Q, E>(c: ArchiveContext<S, P, Q, E>, cfg: Config<S, P, Q>, cmd: Command)
    requires CanIssue(cfg, cmd)
    ensures Issue(AsDyn(c), cfg, cmd).state == Issue(c, cfg, cmd).state
    ensures Issue(AsDyn(c), cfg, cmd).result.Ok? <==> Issue(c, cfg, cmd).result.Ok?
    ensures Issue(c, cfg, cmd).result.Ok? ==> Issue(AsDyn(c), cfg, cmd).result.value == Issue(c, cfg, cmd).result.value
    ensures Issue(c, cfg, cmd).result.Err? ==>
      Issue(AsDyn(c), cfg, cmd).result == Err(DynError(c.display(Issue(c, cfg, cmd).result.error)))
  {
  }

  /** The configurations in which a whole sequence of commands can be
      issued, pops always finding a range (up to the first failure, which
      ends the sequence anyway). */
  predicate Nested(cmds: seq<Command>, prefixes: nat, suffixes: nat)
  {
    if |cmds| == 0 then true
    else
      var cmd := cmds[0];
      && (cmd.PopPrefixRange? ==> prefixes > 0)
      && (cmd.PopSuffixRange? ==> suffixes > 0)
      && Nested(cmds[1..],
                if cmd.PushPrefixSubtreeRange? then prefixes + 1 else if cmd.PopPrefixRange? then prefixes - 1 else prefixes,
                if cmd.PushSuffixSubtreeRange? then suffixes + 1 else if cmd.PopSuffixRange? then suffixes - 1 else suffixes)
  }

  /** The record of a run: the final configuration, the outputs of the
      calls that succeeded, and the first error if there was one. */
  datatype Trace<S, P, Q, E> = Trace(config: Config<S, P, Q>, outputs: seq<Output>, result: Result<(), E>)

  /** Issuing commands in order; the first error ends the run (the `?` of
      every byte check). */
  function Run<S, P, Q, E>(c: ArchiveContext<S, P, Q, E>, cfg: Config<S, P, Q>, cmds: seq<Command>)
    : Trace<S, P, Q, E>
    requires Nested(cmds, |cfg.prefixes|, |cfg.suffixes|)
    decreases |cmds|
  {
    if |cmds| == 0 then Trace(cfg, [], Ok(()))
    else
      var st := Issue(c, cfg, cmds[0]);
      match st.result
      case Err(e) => Trace(st.state, [], Err(e))
      case Ok(out) =>
        var rest := Run(c, st.state, cmds[1..]);
        Trace(rest.config, [out] + rest.outputs, rest.result)
  }

  /** A byte check driven through the dynamic context, as a polymorphic
      field's check is, ends in the same state, with the same outputs, and
      fails exactly when the same check on the concrete context fails,
      reporting that error's message. */
  lemma {:induction false} RunThroughDynAgrees<S, P, Q, E>(c: ArchiveContext<S, P, Q, E>, cfg: Config<S, P, Q>, cmds: seq<Command>)
    requires Nested(cmds, |cfg.prefixes|, |cfg.suffixes|)
    ensures Run(AsDyn(c), cfg, cmds).config == Run(c, cfg, cmds).config
    ensures Run(AsDyn(c), cfg, cmds).outputs == Run(c, cfg, cmds).outputs
    ensures Run(AsDyn(c), cfg, cmds).result == Run(c, cfg, cmds).result.MapErr(e => Erase(c.display, e))
    decreases |cmds|
  {
    if |cmds| > 0 {
      ForwardingIsFaithful(c, cfg, cmds[0]);
      var st := Issue(c, cfg, cmds[0]);
      if st.result.Ok? {
        RunThroughDynAgrees(c, st.state, cmds[1..]);
      }
    }
  }

  // ----- Checking the bytes of a registered implementation -----

  const UnimplementedMessage := "check bytes is not implemented for this type"

  /** `CheckBytesDyn`, the validation entry point stored for an
      implementation: either the fallback for types without `CheckBytes`,
      or a call to the type's own check on a dynamic context of state `S`. */
  datatype CheckBytesDyn<!S> =
    | Unimplemented
    | Implemented(check: (Addr, S) -> Step<S, (), DynError>)

  /** `IsCheckBytesDyn::<T>::check_bytes_dyn`: runs `T::check_bytes`, drops
      the checked reference and erases its error. */
  function IsCheckBytesDyn<S, TE>(typeCheck: (Addr, S) -> Step<S, Addr, TE>, display: TE -> string): CheckBytesDyn<S>
  {
    Implemented((bytes, s) =>
      var st := typeCheck(bytes, s);
      Step(st.state, match st.result case Ok(_) => Ok(()) case Err(e) => Err(Erase(display, e))))
  }

  /** Calling an entry point on the value's bytes; `Unimplemented` is
      `check_bytes_dyn_unimplemented`. */
  function CallCheckBytesDyn<S>(f: CheckBytesDyn<S>, bytes: Addr, s: S): Step<S, (), DynError>
  {
    match f
    case Unimplemented => Step(s, Err(DynError(UnimplementedMessage)))
    case Implemented(check) => check(bytes, s)
  }

  /** The fallback rejects every value, without touching the context. */
  lemma UnimplementedAlwaysFails<S>(bytes: Addr, s: S)
    ensures CallCheckBytesDyn(Unimplemented, bytes, s).result == Err(DynError(UnimplementedMessage))
    ensures CallCheckBytesDyn(Unimplemented, bytes, s).state == s
  {
  }

  /** The entry point of a checkable type accepts exactly the values its own
      check accepts, leaves the context as that check does, and otherwise
      reports that check's error by its message. */
  lemma ImplementedMatchesTypeCheck<S, TE>(typeCheck: (Addr, S) -> Step<S, Addr, TE>, display: TE -> string,
                                           bytes: Addr, s: S)
    ensures CallCheckBytesDyn(IsCheckBytesDyn(typeCheck, display), bytes, s).result == Ok(())
      <==> typeCheck(bytes, s).result.Ok?
    ensures CallCheckBytesDyn(IsCheckBytesDyn(typeCheck, display), bytes, s).state == typeCheck(bytes, s).state
    ensures typeCheck(bytes, s).result.Err? ==>
      CallCheckBytesDyn(IsCheckBytesDyn(typeCheck, display), bytes, s).result
        == Err(DynError(display(typeCheck(bytes, s).result.error)))
  {
  }
}

=== FILE: dyn_metadata.dfy ===
/** Checking the metadata of an archived trait object
    (`CheckBytes for ArchivedDynMetadata` in rkyv_dyn/src/validation.rs):
    the stored type id must name a registered implementation, and a cached
    vtable, when present, must be that implementation's vtable. */
module DynMetadata {
  import opened Results
  import opened Bytes
  import opened Decimal

  const U64Bound: nat := 0x1_0000_0000_0000_0000

  type U64 = x: nat | x < U64Bound

  /** `ArchivedDynMetadata<T>`: the implementation's stable type id and a
      cached vtable address, 0 when nothing is cached. */
  datatype ArchivedDynMetadata = ArchivedDynMetadata(typeId: U64, cachedVtable: U64)

  /** What the implementation registry holds for one implementation of the
      trait: its vtable address. */
  datatype ImplData = ImplData(vtable: nat)

  /** `IMPL_REGISTRY` for one trait, keyed by type id. */
  type ImplRegistry = map<U64, ImplData>

  /** `DynMetadataError`. Vtable addresses are `usize` values. */
  datatype DynMetadataError =
    | InvalidImplId(id: U64)
    | MismatchedCachedVtable(typeId: U64, expected: nat, found: nat)

  /** `x as usize`: the low bits of `x` on the target. */
  function AsUsize(x: U64, w: PointerWidth): (r: nat)
    ensures r < UsizeBound(w)
    ensures w == Bits64 ==> r == x
    // Truncation keeps the low bits: `r` differs from `x` by whole multiples.
    ensures (x - r) % UsizeBound(w) == 0
  {
    x % UsizeBound(w)
  }

  /** `ArchivedDynMetadata::check_bytes`. Both fields are plain `u64`s whose
      byte checks cannot fail, so the type id is read first, looked up, and
      only for a registered id is the cached vtable read and compared. */
  function CheckBytes(value: ArchivedDynMetadata, registry: ImplRegistry, w: PointerWidth)
    : (r: Result<ArchivedDynMetadata, DynMetadataError>)
    // An unregistered type id fails with exactly `InvalidImplId`.
    ensures value.typeId !in registry <==> r == Err(InvalidImplId(value.typeId))
    // A registered id passes when nothing is cached or the cache is right.
    ensures r.Ok? <==>
      && value.typeId in registry
      && (value.cachedVtable == 0 || AsUsize(value.cachedVtable, w) == registry[value.typeId].vtable)
    ensures r.Ok? ==> r.value == value
    // Otherwise the cache is stale or forged, and the error says so.
    ensures value.typeId in registry && r.Err? ==>
      r.error == MismatchedCachedVtable(value.typeId, registry[value.typeId].vtable, AsUsize(value.cachedVtable, w))
  {
    var typeId := value.typeId;
    if typeId in registry then
      var implData := registry[typeId];
      var cached := value.cachedVtable;
      if cached == 0 || AsUsize(cached, w) == implData.vtable then
        Ok(value)
      else
        Err(MismatchedCachedVtable(typeId, implData.vtable, AsUsize(cached, w)))
    else
      Err(InvalidImplId(typeId))
  }

  /** The vtable a dynamic call on the value goes through: the cached one
      when there is one, else the registry's. The lookup that uses checked
      metadata lives outside validation.rs and is not part of this model;
      this definition is the assumption the check is designed to protect. */
  function EffectiveVtable(value: ArchivedDynMetadata, registry: ImplRegistry, w: PointerWidth): Option<nat>
  {
    if value.cachedVtable != 0 then Some(AsUsize(value.cachedVtable, w))
    else if value.typeId in registry then Some(registry[value.typeId].vtable)
    else None
  }

  /** Metadata that passes the check can only lead to the vtable registered
      for its type id: a forged cache is never used. */
  lemma CheckedMetadataUsesRegisteredVtable(value: ArchivedDynMetadata, registry: ImplRegistry, w: PointerWidth)
    requires CheckBytes(value, registry, w).Ok?
    ensures value.typeId in registry
    ensures EffectiveVtable(value, registry, w) == Some(registry[value.typeId].vtable)
  {
  }

  /** The type id is looked up before the cached vtable is read: for an
      unregistered id the cached field has no influence on the outcome. */
  lemma UnregisteredIgnoresCache(value: ArchivedDynMetadata, other: U64, registry: ImplRegistry, w: PointerWidth)
    requires value.typeId !in registry
    ensures CheckBytes(value, registry, w) == CheckBytes(value.(cachedVtable := other), registry, w)
  {
  }

  // ----- Error messages -----

  const InvalidPrefix := "invalid impl id: "
  const InvalidSuffix := " not registered"
  const MismatchPrefix := "mismatched cached vtable for "
  const MismatchExpected := ": expected "
  const MismatchFound := " but found "

  /** `Display for DynMetadataError`. */
  function Describe(e: DynMetadataError): string
  {
    match e
    case InvalidImplId(id) => InvalidPrefix + NatToString(id) + InvalidSuffix
    case MismatchedCachedVtable(typeId, expected, found) =>
      MismatchPrefix + NatToString(typeId) + MismatchExpected + NatToString(expected)
        + MismatchFound + NatToString(found)
  }

  function StripPrefix(s: string, p: string): Option<string>
  {
    if |s| >= |p| && s[..|p|] == p then Some(s[|p|..]) else None
  }

  lemma StripPrefixOfConcat(p: string, rest: string)
    ensures StripPrefix(p + rest, p) == Some(rest)
  {
    assert (p + rest)[..|p|] == p && (p + rest)[|p|..] == rest;
  }

  /** Reads the text after "invalid impl id: " back into the error. */
  function ParseInvalid(s: string): Option<DynMetadataError>
  {
    match ParseNat(s)
    case Some((id, rest)) =>
      if rest == InvalidSuffix && id < U64Bound then Some(InvalidImplId(id)) else None
    case None => None
  }

  /** Reads the text after "mismatched cached vtable for " back into the
      error. */
  function ParseMismatch(s: string): Option<DynMetadataError>
  {
    match ParseNat(s)
    case None => None
    case Some((typeId, rest1)) =>
      match StripPrefix(rest1, MismatchExpected)
      case None => None
      case Some(rest2) =>
        match ParseNat(rest2)
        case None => None
        case Some((expected, rest3)) =>
          match StripPrefix(rest3, MismatchFound)
          case None => None
          case Some(rest4) =>
            match ParseNat(rest4)
            case None => None
            case Some((found, rest5)) =>
              if rest5 == "" && typeId < U64Bound then Some(MismatchedCachedVtable(typeId, expected, found))
              else None
  }

  /** Reads an error message back into the error. */
  function ParseDescription(s: string): Option<DynMetadataError>
  {
    match StripPrefix(s, InvalidPrefix)
    case Some(rest) => ParseInvalid(rest)
    case None =>
      match StripPrefix(s, MismatchPrefix)
      case Some(rest) => ParseMismatch(rest)
      case None => None
  }

  lemma InvalidDescriptionRoundTrip(id: U64)
    ensures ParseDescription(Describe(InvalidImplId(id))) == Some(InvalidImplId(id))
  {
    var rest := NatToString(id) + InvalidSuffix;
    assert Describe(InvalidImplId(id)) == InvalidPrefix + rest;
    StripPrefixOfConcat(InvalidPrefix, rest);
    ParseNatRoundTrip(id, InvalidSuffix);
  }

  lemma ParseMismatchRoundTrip(typeId: U64, expected: nat, found: nat)
    ensures ParseMismatch(NatToString(typeId) + (MismatchExpected + (NatToString(expected) + (MismatchFound + NatToString(found)))))
      == Some(MismatchedCachedVtable(typeId, expected, found))
  {
    var t, x, f := NatToString(typeId), NatToString(expected), NatToString(found);
    var rest3 := MismatchFound + f;
    var rest1 := MismatchExpected + (x + rest3);
    ParseNatRoundTrip(typeId, rest1);
    StripPrefixOfConcat(MismatchExpected, x + rest3);
    ParseNatRoundTrip(expected, rest3);
    StripPrefixOfConcat(MismatchFound, f);
    assert f == f + "";
    ParseNatRoundTrip(found, "");
  }

  lemma MismatchDescriptionRoundTrip(typeId: U64, expected: nat, found: nat)
    ensures ParseDescription(Describe(MismatchedCachedVtable(typeId, expected, found)))
      == Some(MismatchedCachedVtable(typeId, expected, found))
  {
    var t, x, f := NatToString(typeId), NatToString(expected), NatToString(found);
    var rest := t + (MismatchExpected + (x + (MismatchFound + f)));
    var s := Describe(MismatchedCachedVtable(typeId, expected, found));
    assert s == MismatchPrefix + rest;
    assert StripPrefix(s, InvalidPrefix) == None by {
      assert s[0] == 'm';
    }
    StripPrefixOfConcat(MismatchPrefix, rest);
    ParseMismatchRoundTrip(typeId, expected, found);
  }

  /** An error's message identifies it completely: once the error has been
      erased to its text while crossing a dynamic context, nothing about it
      is lost. */
  lemma DescriptionRoundTrip(e: DynMetadataError)
    ensures ParseDescription(Describe(e)) == Some(e)
  {
    match e
    case InvalidImplId(id) => InvalidDescriptionRoundTrip(id);
    case MismatchedCachedVtable(typeId, expected, found) =>
      MismatchDescriptionRoundTrip(typeId, expected, found);
  }
}

=== FILE: niching.dfy ===
/** Niching strategies (rkyv/src/impls/core/with/niching.rs): an "absent"
    optional value is stored as a sentinel bit pattern of the payload's own
    archived bytes, so the optional takes no more space than the payload. */
module Niching {
  import opened Results
  import opened Bytes

  datatype FloatWidth = F32 | F64

  /** The strategies that implement `Niching` in this file. */
  datatype Nicher = Zero | NaN | Bool | DefaultNicher

  /** Archived payload types the strategies apply to.
      - `NichedOpt(inner, n1)` is `NichedOption<inner, n1>`, itself usable as
        the payload of an outer strategy.
      - `Record(first, n1, second, n2)` is a two-field struct whose fields
        carry `#[rkyv(niche = n1)]` and `#[rkyv(niche = n2)]`, like rkyv's
        `Nichable` test struct: it is niched by `n1` through its first field
        and by `n2` through its second. */
  datatype Payload =
    | NonZero(width: nat, signed: bool)
    | Boolean
    | Float(fw: FloatWidth)
    | NichedOpt(inner: Payload, innerNicher: Nicher)
    | Record(first: Payload, firstNiche: Nicher, second: Payload, secondNiche: Nicher)

  /** The associated `Niched` type a strategy views the payload bytes as. */
  datatype View = ArchivedInt(width: nat, signed: bool) | RawByte | ArchivedFloat(fw: FloatWidth)

  /** The integer widths, in bytes, of the non-zero types given `Zero` niching
      (`NonZeroU8` .. `ArchivedNonZeroI128`). */
  predicate IntWidth(w: nat)
  {
    w == 1 || w == 2 || w == 4 || w == 8 || w == 16
  }

  function FloatSize(fw: FloatWidth): nat
  {
    if fw == F32 then 4 else 8
  }

  /** The primitive payloads the impls of this file niche directly. */
  predicate Plain(t: Payload)
  {
    t.NonZero? || t.Boolean? || t.Float?
  }

  /** Size in bytes of an archived payload. `NichedOption` adds no header;
      a record's fields are laid out one after the other. */
  function SizeOf(t: Payload): nat
  {
    match t
    case NonZero(w, _) => w
    case Boolean => 1
    case Float(fw) => FloatSize(fw)
    case NichedOpt(inner, _) => SizeOf(inner)
    case Record(f1, _, f2, _) => SizeOf(f1) + SizeOf(f2)
  }

  function ViewSize(v: View): nat
  {
    match v
    case ArchivedInt(w, _) => w
    case RawByte => 1
    case ArchivedFloat(fw) => FloatSize(fw)
  }

  /** The payload under all the `NichedOption` layers of `t`. */
  function Strip(t: Payload): Payload
  {
    if t.NichedOpt? then Strip(t.inner) else t
  }

  /** Whether `impl Niching<t> for n` exists. For a niched option the generic
      impl asks that both the inner and the outer strategy niche the inner
      payload; its `SharedNiching` bound is `SentinelsDistinct` below. A
      record is niched by the strategy of either field, and its two fields
      use different strategies. */
  predicate Implements(n: Nicher, t: Payload)
    decreases t
  {
    match t
    case NonZero(w, _) => IntWidth(w) && (n == Zero || n == DefaultNicher)
    case Boolean => n == Bool || n == DefaultNicher
    case Float(_) => n == NaN
    case NichedOpt(inner, n1) => Implements(n1, inner) && Implements(n, inner)
    case Record(f1, n1, f2, n2) =>
      && n1 != n2 && Implements(n1, f1) && Implements(n2, f2)
      && (n == n1 || n == n2)
  }

  /** The strategy `DefaultNicher` forwards to: `Bool` for `bool`
      (niching.rs:115-129) and `Zero` for the non-zero integers
      (niching.rs:38-54). */
  function DefaultFor(t: Payload): Nicher
    requires t.NonZero? || t.Boolean?
  {
    if t.Boolean? then Bool else Zero
  }

  /** The measure under which `DefaultNicher` forwarding terminates. */
  function Forwards(n: Nicher): nat
  {
    if n == DefaultNicher then 1 else 0
  }

  /** IEEE 754 NaN: all exponent bits set and a non-zero fraction. */
  predicate IsNaNBits(fw: FloatWidth, u: nat)
  {
    match fw
    case F32 => (u / 0x80_0000) % 0x100 == 0xFF && u % 0x80_0000 != 0
    case F64 => (u / 0x10_0000_0000_0000) % 0x800 == 0x7FF && u % 0x10_0000_0000_0000 != 0
  }

  /** Bit patterns of `f32::NAN` and `f64::NAN`. */
  const NanBits32: nat := 0x7FC0_0000
  const NanBits64: nat := 0x7FF8_0000_0000_0000

  function NanBits(fw: FloatWidth): nat
  {
    if fw == F32 then NanBits32 else NanBits64
  }

  /** `is_niched`: whether the archived bytes `b` of a `t` hold the sentinel
      of strategy `n`. The generic impl for `NichedOption` and a record test
      the inner payload's or the field's bytes; on a primitive payload each
      strategy has its own test, and `DefaultNicher` forwards. */
  predicate IsNiched(n: Nicher, t: Payload, e: Endian, b: seq<Byte>)
    requires Implements(n, t)
    requires |b| == SizeOf(t)
    decreases t, Forwards(n)
  {
    match t
    case NichedOpt(inner, _) => IsNiched(n, inner, e, b)
    case Record(f1, n1, f2, _) =>
      if n == n1 then IsNiched(n, f1, e, b[..SizeOf(f1)])
      else IsNiched(n, f2, e, b[SizeOf(f1)..])
    case NonZero(_, signed) =>
      if n == Zero then (if signed then Signed(b, e) else Unsigned(b, e) as int) == 0
      else IsNiched(DefaultFor(t), t, e, b)
    case Boolean =>
      if n == Bool then b[0] > 1
      else IsNiched(DefaultFor(t), t, e, b)
    case Float(fw) => IsNaNBits(fw, Unsigned(b, e))
  }

  /** `resolve_niched`: the bytes strategy `n` writes for an absent `t`. A
      record gets the sentinel in its niched field; its other field is left
      as zero-initialised memory. */
  function ResolveNiched(n: Nicher, t: Payload, e: Endian): (r: seq<Byte>)
    requires Implements(n, t)
    ensures |r| == SizeOf(t)
    decreases t, Forwards(n)
  {
    match t
    case NichedOpt(inner, _) => ResolveNiched(n, inner, e)
    case Record(f1, n1, f2, _) =>
      if n == n1 then ResolveNiched(n, f1, e) + Zeros(SizeOf(f2))
      else Zeros(SizeOf(f1)) + ResolveNiched(n, f2, e)
    case NonZero(w, _) =>
      if n == Zero then Encode(0, w, e)
      else ResolveNiched(DefaultFor(t), t, e)
    case Boolean =>
      if n == Bool then [2]
      else ResolveNiched(DefaultFor(t), t, e)
    case Float(fw) =>
      assert NanBits(fw) < Pow256(FloatSize(fw)) by { Pow256Values(); }
      Encode(NanBits(fw), FloatSize(fw), e)
  }

  /** The associated `Niched` view type of `n` on `t`. */
  function NichedView(n: Nicher, t: Payload): View
    requires Implements(n, t)
    decreases t, Forwards(n)
  {
    match t
    case NichedOpt(inner, _) => NichedView(n, inner)
    case Record(f1, n1, f2, _) => if n == n1 then NichedView(n, f1) else NichedView(n, f2)
    case NonZero(w, signed) =>
      if n == Zero then ArchivedInt(w, signed) else NichedView(DefaultFor(t), t)
    case Boolean =>
      if n == Bool then RawByte else NichedView(DefaultFor(t), t)
    case Float(fw) => ArchivedFloat(fw)
  }

  /** `niched_ptr`: where the niched view of a payload at address `p` lives.
      The view always lies inside the payload's own bytes; without records
      it is the payload itself, exactly as large: there is no extra header. */
  function NichedPtr(n: Nicher, t: Payload, p: nat): (r: Option<nat>)
    requires Implements(n, t)
    ensures r.Some? && p <= r.value
    ensures r.value - p + ViewSize(NichedView(n, t)) <= SizeOf(t)
    ensures !Strip(t).Record? ==> r == Some(p) && ViewSize(NichedView(n, t)) == SizeOf(t)
    decreases t, Forwards(n)
  {
    match t
    case NichedOpt(inner, _) => NichedPtr(n, inner, p)
    case Record(f1, n1, f2, _) =>
      if n == n1 then NichedPtr(n, f1, p) else NichedPtr(n, f2, p + SizeOf(f1))
    case NonZero(_, _) => if n == Zero then Some(p) else NichedPtr(DefaultFor(t), t, p)
    case Boolean => if n == Bool then Some(p) else NichedPtr(DefaultFor(t), t, p)
    case Float(_) => Some(p)
  }

  lemma NanBitsAreNaN()
    ensures IsNaNBits(F32, NanBits32) && IsNaNBits(F64, NanBits64)
  {
    assert NanBits32 / 0x80_0000 == 0xFF;
    assert NanBits64 / 0x10_0000_0000_0000 == 0x7FF;
  }

  lemma Pow256Values()
    ensures Pow256(1) == 0x100 && Pow256(2) == 0x1_0000
    ensures Pow256(4) == 0x1_0000_0000
    ensures Pow256(8) == 0x1_0000_0000_0000_0000
  {
  }

  // ----- What each strategy means -----

  /** `Zero`: a non-zero integer is niched exactly when it reads as 0, which
      is exactly when all its bytes are zero, whatever the byte order. */
  lemma ZeroNichedIff(t: Payload, e: Endian, b: seq<Byte>)
    requires t.NonZero? && Implements(Zero, t) && |b| == SizeOf(t)
    ensures IsNiched(Zero, t, e, b) <==> (if t.signed then Signed(b, e) else Unsigned(b, e) as int) == 0
    ensures IsNiched(Zero, t, e, b) <==> AllZero(b)
  {
    SignedZeroIff(b, e);
    UnsignedZeroIff(b, e);
  }

  /** Whatever strategy is used, the bytes `resolve_niched` writes read back
      as niched. */
  lemma {:induction false} ResolveIsNiched(n: Nicher, t: Payload, e: Endian)
    requires Implements(n, t)
    ensures IsNiched(n, t, e, ResolveNiched(n, t, e))
    decreases t, Forwards(n)
  {
    match t
    case NichedOpt(inner, _) =>
      ResolveIsNiched(n, inner, e);
    case Record(f1, n1, f2, _) =>
      var r := ResolveNiched(n, t, e);
      if n == n1 {
        ResolveIsNiched(n, f1, e);
        assert r[..SizeOf(f1)] == ResolveNiched(n, f1, e);
      } else {
        ResolveIsNiched(n, f2, e);
        assert r[SizeOf(f1)..] == ResolveNiched(n, f2, e);
      }
    case NonZero(w, _) =>
      if n == Zero {
        EncodeZeroIsAllZero(w, e);
        ZeroNichedIff(t, e, Encode(0, w, e));
      } else {
        ResolveIsNiched(DefaultFor(t), t, e);
      }
    case Boolean =>
      if n != Bool {
        ResolveIsNiched(DefaultFor(t), t, e);
      }
    case Float(fw) =>
      Pow256Values();
      EncodeRoundTrip(NanBits(fw), FloatSize(fw), e);
      NanBitsAreNaN();
  }

  /** The values a payload type can legally hold: a non-zero integer is not
      zero, a `bool` byte is 0 or 1, and a float field given `NaN` niching is
      declared never to hold NaN (a precondition rkyv leaves to its users).
      A niched option holds either its inner sentinel or a legal payload; a
      record holds legal fields. */
  predicate Legal(t: Payload, e: Endian, b: seq<Byte>)
    requires |b| == SizeOf(t)
  {
    match t
    case NonZero(w, _) => !AllZero(b)
    case Boolean => b[0] <= 1
    case Float(fw) => !IsNaNBits(fw, Unsigned(b, e))
    case NichedOpt(inner, n1) =>
      Legal(inner, e, b) || (Implements(n1, inner) && IsNiched(n1, inner, e, b))
    case Record(f1, _, f2, _) =>
      Legal(f1, e, b[..SizeOf(f1)]) && Legal(f2, e, b[SizeOf(f1)..])
  }

  /** No niched option inside `t`: its legal values are plain data. */
  predicate OptionFree(t: Payload)
  {
    match t
    case NichedOpt(_, _) => false
    case Record(f1, _, f2, _) => OptionFree(f1) && OptionFree(f2)
    case _ => true
  }

  /** A legal value of a type without niched options is never read as
      absent, so a present value survives the round trip; in particular the
      `bool` bytes 0 and 1 are never niched. */
  lemma {:induction false} LegalNeverNiched(n: Nicher, t: Payload, e: Endian, b: seq<Byte>)
    requires OptionFree(t) && Implements(n, t)
    requires |b| == SizeOf(t) && Legal(t, e, b)
    ensures !IsNiched(n, t, e, b)
    decreases t, Forwards(n)
  {
    match t
    case Record(f1, n1, f2, _) =>
      if n == n1 {
        LegalNeverNiched(n, f1, e, b[..SizeOf(f1)]);
      } else {
        LegalNeverNiched(n, f2, e, b[SizeOf(f1)..]);
      }
    case NonZero(_, _) =>
      if n == Zero {
        ZeroNichedIff(t, e, b);
      } else {
        LegalNeverNiched(DefaultFor(t), t, e, b);
      }
    case Boolean =>
      if n != Bool {
        LegalNeverNiched(DefaultFor(t), t, e, b);
      }
    case Float(_) =>
  }

  /** The generic impl for `NichedOption<T, N1>`, however deeply nested: an
      outer strategy sizes, views, tests and writes the very same bytes as it
      would for the innermost payload. */
  lemma {:induction false} NestedReducesToBase(n: Nicher, t: Payload, e: Endian, b: seq<Byte>)
    requires Implements(n, t) && |b| == SizeOf(t)
    ensures SizeOf(Strip(t)) == SizeOf(t) && Implements(n, Strip(t))
    ensures IsNiched(n, t, e, b) == IsNiched(n, Strip(t), e, b)
    ensures ResolveNiched(n, t, e) == ResolveNiched(n, Strip(t), e)
    ensures NichedView(n, t) == NichedView(n, Strip(t))
  {
    if t.NichedOpt? {
      NestedReducesToBase(n, t.inner, e, b);
    }
  }

  /** `DefaultNicher`, at any nesting depth over a non-zero integer or a
      `bool`, is `Zero` or `Bool` respectively: it niches a non-zero integer
      at all-zero bytes and a `bool` at any byte above 1. */
  lemma {:induction false} DefaultNicherDelegates(t: Payload, e: Endian, b: seq<Byte>)
    requires Implements(DefaultNicher, t) && |b| == SizeOf(t) && !Strip(t).Record?
    ensures SizeOf(Strip(t)) == SizeOf(t)
    ensures Strip(t).NonZero? || Strip(t).Boolean?
    ensures Implements(DefaultFor(Strip(t)), t)
    ensures IsNiched(DefaultNicher, t, e, b) == IsNiched(DefaultFor(Strip(t)), t, e, b)
    ensures ResolveNiched(DefaultNicher, t, e) == ResolveNiched(DefaultFor(Strip(t)), t, e)
    ensures NichedView(DefaultNicher, t) == NichedView(DefaultFor(Strip(t)), t)
    ensures Strip(t).NonZero? ==> (IsNiched(DefaultNicher, t, e, b) <==> AllZero(b))
    ensures Strip(t).Boolean? ==> (IsNiched(DefaultNicher, t, e, b) <==> b[0] > 1)
  {
    if t.NichedOpt? {
      DefaultNicherDelegates(t.inner, e, b);
    } else if t.NonZero? {
      ZeroNichedIff(t, e, b);
    }
  }

  /** The converse: at any nesting depth over a non-zero integer or a `bool`,
      `DefaultNicher` is implemented exactly where `Zero` or `Bool` is. */
  lemma {:induction false} DefaultImplementedIff(t: Payload)
    requires Strip(t).NonZero? || Strip(t).Boolean?
    ensures Implements(DefaultNicher, t) <==> Implements(DefaultFor(Strip(t)), t)
  {
    if t.NichedOpt? {
      DefaultImplementedIff(t.inner);
    }
  }

  // ----- The niched option -----

  /** Archiving `Option<T>` with strategy `n`: a present value is stored as
      its own bytes, an absent one as the sentinel. */
  function EncodeOption(n: Nicher, t: Payload, e: Endian, o: Option<seq<Byte>>): seq<Byte>
    requires Implements(n, t)
    requires o.Some? ==> |o.value| == SizeOf(t)
  {
    match o
    case None => ResolveNiched(n, t, e)
    case Some(v) => v
  }

  /** Reading a niched option back. */
  function DecodeOption(n: Nicher, t: Payload, e: Endian, b: seq<Byte>): Option<seq<Byte>>
    requires Implements(n, t) && |b| == SizeOf(t)
  {
    if IsNiched(n, t, e, b) then None else Some(b)
  }

  /** The niched option takes exactly the payload's size, and reading it back
      gives the option that was written, for every absent value and every
      present value that is not itself a sentinel. */
  lemma OptionRoundTrip(n: Nicher, t: Payload, e: Endian, o: Option<seq<Byte>>)
    requires Implements(n, t)
    requires o.Some? ==> |o.value| == SizeOf(t) && !IsNiched(n, t, e, o.value)
    ensures |EncodeOption(n, t, e, o)| == SizeOf(t)
    ensures DecodeOption(n, t, e, EncodeOption(n, t, e, o)) == o
  {
    if o.None? {
      ResolveIsNiched(n, t, e);
    }
  }

  /** A NaN stored in a float field niched by `NaN` reads back as absent: the
      documented precondition violation. */
  lemma PresentNaNReadsAbsent(fw: FloatWidth, e: Endian, v: seq<Byte>)
    requires |v| == FloatSize(fw) && IsNaNBits(fw, Unsigned(v, e))
    ensures DecodeOption(NaN, Float(fw), e, EncodeOption(NaN, Float(fw), e, Some(v))) == None
  {
  }

  /** The `SharedNiching<N1, N2>` bound on `T`: the outer strategy does not
      read the inner strategy's sentinel as its own. */
  predicate SentinelsDistinct(t: Payload, n1: Nicher, n2: Nicher, e: Endian)
    requires Implements(n1, t) && Implements(n2, t)
  {
    !IsNiched(n2, t, e, ResolveNiched(n1, t, e))
  }

  /** `Option<NichedOption<T, N1>>` archived with outer strategy `N2`. */
  function EncodeNested(n1: Nicher, n2: Nicher, t: Payload, e: Endian, x: Option<Option<seq<Byte>>>): (r: seq<Byte>)
    requires Implements(n2, NichedOpt(t, n1))
    requires x.Some? && x.value.Some? ==> |x.value.value| == SizeOf(t)
  {
    match x
    case None => ResolveNiched(n2, NichedOpt(t, n1), e)
    case Some(inner) => EncodeOption(n1, t, e, inner)
  }

  function DecodeNested(n1: Nicher, n2: Nicher, t: Payload, e: Endian, b: seq<Byte>): Option<Option<seq<Byte>>>
    requires Implements(n2, NichedOpt(t, n1)) && |b| == SizeOf(t)
  {
    if IsNiched(n2, NichedOpt(t, n1), e, b) then None else Some(DecodeOption(n1, t, e, b))
  }

  /** Nested options share the payload's bytes: the encoding has the payload's
      size whatever the nesting, and it reads back as written exactly when the
      inner-absent case is not mistaken for the outer-absent one, which is
      what `SharedNiching` guarantees. */
  lemma NestedRoundTrip(n1: Nicher, n2: Nicher, t: Payload, e: Endian, x: Option<Option<seq<Byte>>>)
    requires Implements(n2, NichedOpt(t, n1))
    requires x.Some? && x.value.Some? ==>
      |x.value.value| == SizeOf(t) && !IsNiched(n1, t, e, x.value.value) && !IsNiched(n2, t, e, x.value.value)
    ensures |EncodeNested(n1, n2, t, e, x)| == SizeOf(NichedOpt(t, n1))
    ensures DecodeNested(n1, n2, t, e, EncodeNested(n1, n2, t, e, x)) == x
      <==> (x == Some(None) ==> SentinelsDistinct(t, n1, n2, e))
  {
    ResolveIsNiched(n1, t, e);
    ResolveIsNiched(n2, t, e);
  }

  /** No two strategies of this file share a niche on one plain payload type:
      both niche a non-zero integer at zero, a `bool` above 1, a float at NaN.
      Nesting them over a plain type would read "present but absent inside"
      as "absent", which is why the generic impl demands `SharedNiching`. */
  lemma PlainPayloadsCollide(n1: Nicher, n2: Nicher, t: Payload, e: Endian)
    requires Plain(t) && Implements(n1, t) && Implements(n2, t)
    ensures !SentinelsDistinct(t, n1, n2, e)
    ensures DecodeNested(n1, n2, t, e, EncodeNested(n1, n2, t, e, Some(None))) == None
  {
    var c := Canonical(t);
    ResolveIsNiched(c, t, e);
    var s := ResolveNiched(c, t, e);
    PlainStrategyAgrees(n1, t, e, s);
    PlainStrategyAgrees(n2, t, e, s);
    assert IsNiched(n2, t, e, ResolveNiched(n1, t, e));
    var enc := EncodeNested(n1, n2, t, e, Some(None));
    assert enc == ResolveNiched(n1, t, e);
    assert IsNiched(n2, NichedOpt(t, n1), e, enc);
  }

  /** The strategy rkyv implements directly for a plain payload. */
  function Canonical(t: Payload): Nicher
    requires Plain(t)
  {
    if t.Float? then NaN else DefaultFor(t)
  }

  /** On a plain payload, every strategy that implements it tests and writes
      exactly as the directly implemented one. */
  lemma PlainStrategyAgrees(n: Nicher, t: Payload, e: Endian, b: seq<Byte>)
    requires Plain(t) && Implements(n, t) && |b| == SizeOf(t)
    ensures Implements(Canonical(t), t)
    ensures ResolveNiched(n, t, e) == ResolveNiched(Canonical(t), t, e)
    ensures IsNiched(n, t, e, b) == IsNiched(Canonical(t), t, e, b)
  {
  }

  /** A record strategy writes its sentinel into its own field and leaves
      the other field zero, so an outer strategy on the other field tells the
      inner sentinel apart exactly when zero bytes are not its own sentinel.
      Distinctness is directional: each order of the two strategies has its
      own condition. */
  lemma RecordSentinelsDistinctIff(t: Payload, e: Endian)
    requires t.Record? && Implements(t.firstNiche, t) && Implements(t.secondNiche, t)
    ensures SentinelsDistinct(t, t.firstNiche, t.secondNiche, e)
      <==> !IsNiched(t.secondNiche, t.second, e, Zeros(SizeOf(t.second)))
    ensures SentinelsDistinct(t, t.secondNiche, t.firstNiche, e)
      <==> !IsNiched(t.firstNiche, t.first, e, Zeros(SizeOf(t.first)))
  {
    var r1 := ResolveNiched(t.firstNiche, t, e);
    assert r1[SizeOf(t.first)..] == Zeros(SizeOf(t.second));
    var r2 := ResolveNiched(t.secondNiche, t, e);
    assert r2[..SizeOf(t.first)] == Zeros(SizeOf(t.first));
  }

  /** rkyv's `Nichable` test struct, reduced to its `NaN`-niched float field
      and its `Zero`-niched integer field. */
  const Nichable: Payload := Record(Float(F32), NaN, NonZero(4, false), Zero)

  /** `Middle`'s field `a: Option<Nichable>` with `Nicher<Zero>` inside and
      `NaN` outside: the two sentinels are distinct, so every nested option
      reads back as written, `Some(None)` included. */
  lemma NichableNestedRoundTrip(e: Endian, x: Option<Option<seq<Byte>>>)
    requires x.Some? && x.value.Some? ==>
      && |x.value.value| == SizeOf(Nichable)
      && !IsNiched(Zero, Nichable, e, x.value.value)
      && !IsNiched(NaN, Nichable, e, x.value.value)
    ensures Implements(NaN, NichedOpt(Nichable, Zero)) && SentinelsDistinct(Nichable, Zero, NaN, e)
    ensures DecodeNested(Zero, NaN, Nichable, e, EncodeNested(Zero, NaN, Nichable, e, x)) == x
  {
    RecordSentinelsDistinctIff(Nichable, e);
    UnsignedZeroIff(Zeros(4), e);
    NestedRoundTrip(Zero, NaN, Nichable, e, x);
  }

  /** `Middle`'s field `b: Option<Nichable>` takes the other order, with
      `Nicher<NaN>` inside and `Zero` outside. The inner sentinel leaves the
      integer field zero, which `Zero` reads as its own sentinel, so with
      zero-filled fields the sentinels collide and `Some(None)` reads back
      as `None`. */
  lemma NichableReversedCollapses(e: Endian)
    ensures Implements(Zero, NichedOpt(Nichable, NaN))
    ensures !SentinelsDistinct(Nichable, NaN, Zero, e)
    ensures DecodeNested(NaN, Zero, Nichable, e, EncodeNested(NaN, Zero, Nichable, e, Some(None))) == None
  {
    RecordSentinelsDistinctIff(Nichable, e);
    UnsignedZeroIff(Zeros(4), e);
    assert IsNiched(Zero, Nichable, e, ResolveNiched(NaN, Nichable, e));
    assert EncodeNested(NaN, Zero, Nichable, e, Some(None)) == ResolveNiched(NaN, Nichable, e);
  }
}

=== FILE: results.dfy ===
/** Failure-carrying values shared by every module of the model: Rust's
    `Option` and `Result`. */
module Results {

  datatype Option<+T> = None | Some(value: T)

  datatype Result<+T, +E> = Ok(value: T) | Err(error: E) {

    /** `Result::map_err`: the success value is kept, an error is converted. */
    function MapErr<E2>(f: E -> E2): Result<T, E2>
    {
      match this
      case Ok(v) => Ok(v)
      case Err(e) => Err(f(e))
    }
  }
}

=== FILE: vec_deque.dfy ===
/** The bridge between `VecDeque` and the archived vector
    (rkyv/src/impls/std/collections/vec_deque.rs): serializing a ring buffer
    as one contiguous run, comparing a deque with an archived vector, and
    deserializing back into a deque. */
module VecDequeBridge {
  import opened Results
  import opened Bytes

  /** A ring buffer: `len` live elements starting at slot `head` of `buf`,
      wrapping around its end. Slots outside the live region hold whatever
      was last written there. */
  datatype VecDeque<T> = VecDeque(buf: seq<T>, head: nat, len: nat)
  {
    ghost predicate Valid()
    {
      len <= |buf| && (head < |buf| || (|buf| == 0 && head == 0))
    }

    function Capacity(): nat
    {
      |buf|
    }
  }

  /** The buffer slot of the `i`-th element: `head + i`, wrapped once past
      the end of the buffer. */
  function Slot<T>(d: VecDeque<T>, i: nat): (r: nat)
    requires d.Valid() && i < d.len
    ensures r < |d.buf|
  {
    if d.head + i < |d.buf| then d.head + i else d.head + i - |d.buf|
  }

  /** The elements in iteration order, front to back. */
  function Elements<T>(d: VecDeque<T>): (r: seq<T>)
    requires d.Valid()
    ensures |r| == d.len
  {
    seq(d.len, i requires 0 <= i < d.len => d.buf[Slot(d, i)])
  }

  /** `VecDeque::as_slices`: the live region as the part from `head` up to
      the end of the buffer and the part that wrapped around to its start.
      Read one after the other, they are the deque in iteration order, and
      only a non-empty deque has a non-empty first part. */
  function AsSlices<T>(d: VecDeque<T>): (r: (seq<T>, seq<T>))
    requires d.Valid()
    ensures r.0 + r.1 == Elements(d)
    ensures |r.0| == 0 ==> |r.1| == 0
  {
    if d.head + d.len <= |d.buf| then
      (d.buf[d.head..d.head + d.len], [])
    else
      (d.buf[d.head..], d.buf[..d.head + d.len - |d.buf|])
  }

  /** `VecDeque::push_back` into a deque with a free slot. */
  function PushBack<T>(d: VecDeque<T>, x: T): (r: VecDeque<T>)
    requires d.Valid() && d.len < d.Capacity()
    ensures r.Valid() && r.Capacity() == d.Capacity() && r.head == d.head
    ensures Elements(r) == Elements(d) + [x]
  {
    var s := if d.head + d.len < |d.buf| then d.head + d.len else d.head + d.len - |d.buf|;
    var r := VecDeque(d.buf[s := x], d.head, d.len + 1);
    assert Elements(r) == Elements(d) + [x] by {
      forall i | 0 <= i < d.len ensures Elements(r)[i] == Elements(d)[i] {
        assert Slot(r, i) == Slot(d, i) != s;
      }
      assert Slot(r, d.len) == s;
    }
    r
  }

  /** `VecDeque::push_front` into a deque with a free slot: the head moves
      one slot back, wrapping to the end of the buffer. */
  function PushFront<T>(d: VecDeque<T>, x: T): (r: VecDeque<T>)
    requires d.Valid() && d.len < d.Capacity()
    ensures r.Valid() && r.Capacity() == d.Capacity()
    ensures r.head == if d.head == 0 then d.Capacity() - 1 else d.head - 1
    ensures Elements(r) == [x] + Elements(d)
  {
    var h := if d.head == 0 then |d.buf| - 1 else d.head - 1;
    var r := VecDeque(d.buf[h := x], h, d.len + 1);
    assert Elements(r) == [x] + Elements(d) by {
      forall i | 1 <= i < d.len + 1 ensures Elements(r)[i] == Elements(d)[i - 1] {
        assert Slot(r, i) == Slot(d, i - 1) != h;
      }
    }
    r
  }

  // ----- Serialization -----

  /** Applying a fallible conversion to each element in order; the first
      failure aborts and is the one reported. */
  function TryMap<X, Y, E>(xs: seq<X>, f: X -> Result<Y, E>): (r: Result<seq<Y>, E>)
    ensures r.Ok? <==> forall i :: 0 <= i < |xs| ==> f(xs[i]).Ok?
    ensures r.Ok? ==> |r.value| == |xs| && forall i :: 0 <= i < |xs| ==> f(xs[i]) == Ok(r.value[i])
    ensures r.Err? ==> exists i :: 0 <= i < |xs| && f(xs[i]) == Err(r.error)
                                   && forall j :: 0 <= j < i ==> f(xs[j]).Ok?
  {
    if |xs| == 0 then Ok([])
    else
      match f(xs[0])
      case Err(e) => Err(e)
      case Ok(y) =>
        match TryMap(xs[1..], f)
        case Err(e) =>
          assert forall i :: 0 < i < |xs| ==> xs[1..][i - 1] == xs[i];
          Err(e)
        case Ok(ys) =>
          assert forall i :: 0 < i < |xs| ==> xs[1..][i - 1] == xs[i];
          Ok([y] + ys)
  }

  /** The outcome of a conversion is fixed by the per-element outcomes, so any
      result meeting `TryMap`'s description is `TryMap`'s. */
  lemma TryMapUnique<X, Y, E>(xs: seq<X>, f: X -> Result<Y, E>, r: Result<seq<Y>, E>)
    requires r.Ok? ==> |r.value| == |xs| && forall i :: 0 <= i < |xs| ==> f(xs[i]) == Ok(r.value[i])
    requires r.Err? ==> exists i :: 0 <= i < |xs| && f(xs[i]) == Err(r.error)
                                    && forall j :: 0 <= j < i ==> f(xs[j]).Ok?
    ensures r == TryMap(xs, f)
  {
    var t := TryMap(xs, f);
    if r.Ok? {
      assert t.Ok?;
      assert t.value == r.value;
    } else {
      var i :| 0 <= i < |xs| && f(xs[i]) == Err(r.error) && forall j :: 0 <= j < i ==> f(xs[j]).Ok?;
      assert t.Err?;
      var k :| 0 <= k < |xs| && f(xs[k]) == Err(t.error) && forall j :: 0 <= j < k ==> f(xs[j]).Ok?;
      assert k == i;
    }
  }

  /** `ArchivedVec::serialize_from_slice`: each element of the slice is
      serialized in order into one contiguous run of archived elements. */
  function SerializeFromSlice<T, A, E>(xs: seq<T>, ser: T -> Result<A, E>): Result<seq<A>, E>
  {
    TryMap(xs, ser)
  }

  /** `ArchivedVec::serialize_from_iter` over the deque's iterator: elements
      are pulled front to back out of the ring buffer. */
  method SerializeFromIter<T, A, E>(d: VecDeque<T>, ser: T -> Result<A, E>) returns (r: Result<seq<A>, E>)
    requires d.Valid()
    ensures r.Ok? ==> |r.value| == d.len && forall i :: 0 <= i < d.len ==> ser(Elements(d)[i]) == Ok(r.value[i])
    ensures r.Err? ==> exists i :: 0 <= i < d.len && ser(Elements(d)[i]) == Err(r.error)
                                   && forall j :: 0 <= j < i ==> ser(Elements(d)[j]).Ok?
  {
    var out: seq<A> := [];
    var i := 0;
    while i < d.len
      invariant 0 <= i <= d.len
      invariant |out| == i
      invariant forall j :: 0 <= j < i ==> ser(Elements(d)[j]) == Ok(out[j])
    {
      var x := d.buf[Slot(d, i)];
      assert x == Elements(d)[i];
      match ser(x)
      case Err(e) =>
        assert ser(Elements(d)[i]) == Err(e);
        return Err(e);
      case Ok(a) =>
        out := out + [a];
      i := i + 1;
    }
    return Ok(out);
  }

  /** `Serialize for VecDeque`: whichever of the three branches is taken
      (nothing wrapped, nothing before the wrap, or both parts non-empty),
      the archived run is the deque's elements in iteration order. */
  method Serialize<T, A, E>(d: VecDeque<T>, ser: T -> Result<A, E>) returns (r: Result<seq<A>, E>)
    requires d.Valid()
    ensures r == SerializeFromSlice(Elements(d), ser)
  {
    var (a, b) := AsSlices(d);
    if |b| == 0 {
      assert a == Elements(d);
      r := SerializeFromSlice(a, ser);
    } else if |a| == 0 {
      // Unreachable: `as_slices` leaves the first slice empty only for an
      // empty deque, which the first branch takes.
      r := SerializeFromSlice(b, ser);
      assert false;
    } else {
      r := SerializeFromIter(d, ser);
      TryMapUnique(Elements(d), ser, r);
    }
  }

  /** The fixed-size part of an archived vector: a relative pointer to the
      element run and the element count. */
  datatype ArchivedVecHeader = ArchivedVecHeader(offset: int, len: nat)

  /** `Archive::resolve` for `VecDeque`: the header written at `pos` records
      the deque's length and points at the run the serializer wrote at
      `runPos`, stored as the distance from its own position. */
  function Resolve<T>(d: VecDeque<T>, pos: nat, runPos: nat): (r: ArchivedVecHeader)
    requires d.Valid()
    ensures r.len == |Elements(d)|
    ensures pos + r.offset == runPos
  {
    ArchivedVecHeader(runPos - pos, d.len)
  }

  /** The header `Resolve` writes describes the run `serialize` wrote: its
      length is the number of archived elements, and following its offset
      from the header's position reaches the run. */
  lemma ResolveDescribesRun<T, A, E>(d: VecDeque<T>, ser: T -> Result<A, E>, pos: nat, runPos: nat)
    requires d.Valid()
    requires SerializeFromSlice(Elements(d), ser).Ok?
    ensures Resolve(d, pos, runPos).len == |SerializeFromSlice(Elements(d), ser).value|
    ensures pos + Resolve(d, pos, runPos).offset == runPos
  {
  }

  // ----- Comparison with an archived vector -----

  /** `Iterator::eq`: walk both sequences together; equal when every pair is
      equal and both end at once. */
  function IterEq<X, Y>(xs: seq<X>, ys: seq<Y>, eq: (X, Y) -> bool): bool
  {
    if |xs| == 0 then |ys| == 0
    else if |ys| == 0 then false
    else eq(xs[0], ys[0]) && IterEq(xs[1..], ys[1..], eq)
  }

  predicate Pairwise<X, Y>(xs: seq<X>, ys: seq<Y>, eq: (X, Y) -> bool)
  {
    |xs| == |ys| && forall i :: 0 <= i < |xs| ==> eq(xs[i], ys[i])
  }

  lemma {:induction false} IterEqIff<X, Y>(xs: seq<X>, ys: seq<Y>, eq: (X, Y) -> bool)
    ensures IterEq(xs, ys, eq) <==> Pairwise(xs, ys, eq)
  {
    if |xs| > 0 && |ys| > 0 {
      IterEqIff(xs[1..], ys[1..], eq);
      if Pairwise(xs, ys, eq) {
        assert forall i :: 0 <= i < |xs| - 1 ==> xs[1..][i] == xs[i + 1] && ys[1..][i] == ys[i + 1];
      }
      if IterEq(xs, ys, eq) {
        forall i | 0 <= i < |xs| ensures eq(xs[i], ys[i]) {
          if i > 0 {
            assert xs[1..][i - 1] == xs[i] && ys[1..][i - 1] == ys[i];
          }
        }
      }
    }
  }

  /** `PartialEq<VecDeque<U>> for ArchivedVec<T>`. */
  function ArchivedEqDeque<A, U>(av: seq<A>, d: VecDeque<U>, eq: (A, U) -> bool): bool
    requires d.Valid()
  {
    |av| == d.len && IterEq(av, Elements(d), eq)
  }

  /** `PartialEq<ArchivedVec<U>> for VecDeque<T>`. */
  function DequeEqArchived<T, A>(d: VecDeque<T>, av: seq<A>, eq: (T, A) -> bool): bool
    requires d.Valid()
  {
    d.len == |av| && IterEq(Elements(d), av, eq)
  }

  /** Equality in both directions is equal length plus elementwise equality,
      and the two directions agree when the element comparisons do. */
  lemma ArchivedDequeEqIff<A, T>(av: seq<A>, d: VecDeque<T>, eqAT: (A, T) -> bool, eqTA: (T, A) -> bool)
    requires d.Valid()
    requires forall a, t :: eqAT(a, t) == eqTA(t, a)
    ensures ArchivedEqDeque(av, d, eqAT) <==> Pairwise(av, Elements(d), eqAT)
    ensures DequeEqArchived(d, av, eqTA) <==> Pairwise(Elements(d), av, eqTA)
    ensures ArchivedEqDeque(av, d, eqAT) <==> DequeEqArchived(d, av, eqTA)
  {
    IterEqIff(av, Elements(d), eqAT);
    IterEqIff(Elements(d), av, eqTA);
  }

  datatype Ordering = Less | Equal | Greater
  {
    function Reverse(): Ordering
    {
      match this
      case Less => Greater
      case Equal => Equal
      case Greater => Less
    }
  }

  function ReverseOpt(o: Option<Ordering>): Option<Ordering>
  {
    match o
    case None => None
    case Some(c) => Some(c.Reverse())
  }

  function CompareLengths(m: nat, n: nat): Ordering
  {
    if m < n then Less else if m == n then Equal else Greater
  }

  /** `Iterator::partial_cmp`: the first pair that is not `Some(Equal)`
      decides, incomparable pairs included; otherwise the shorter sequence is
      less. */
  function IterCmp<X>(xs: seq<X>, ys: seq<X>, cmp: (X, X) -> Option<Ordering>): Option<Ordering>
  {
    if |xs| == 0 then Some(if |ys| == 0 then Equal else Less)
    else if |ys| == 0 then Some(Greater)
    else if cmp(xs[0], ys[0]) == Some(Equal) then IterCmp(xs[1..], ys[1..], cmp)
    else cmp(xs[0], ys[0])
  }

  /** `k` is where the sequences first differ: before it every pair compares
      equal, and it is past one of the ends or at a pair that does not. */
  predicate FirstDifference<X>(xs: seq<X>, ys: seq<X>, cmp: (X, X) -> Option<Ordering>, k: nat)
  {
    && k <= |xs| && k <= |ys|
    && (forall j :: 0 <= j < k ==> cmp(xs[j], ys[j]) == Some(Equal))
    && (k == |xs| || k == |ys| || cmp(xs[k], ys[k]) != Some(Equal))
  }

  /** `partial_cmp` is the lexicographic comparison: decided by the first
      differing pair, or by the lengths when one is a prefix of the other. */
  lemma {:induction false} IterCmpLexicographic<X>(xs: seq<X>, ys: seq<X>, cmp: (X, X) -> Option<Ordering>, k: nat)
    requires FirstDifference(xs, ys, cmp, k)
    ensures IterCmp(xs, ys, cmp) ==
      if k < |xs| && k < |ys| then cmp(xs[k], ys[k]) else Some(CompareLengths(|xs|, |ys|))
  {
    if k > 0 {
      assert cmp(xs[0], ys[0]) == Some(Equal);
      assert FirstDifference(xs[1..], ys[1..], cmp, k - 1) by {
        assert forall j :: 0 <= j < k - 1 ==> xs[1..][j] == xs[j + 1] && ys[1..][j] == ys[j + 1];
      }
      IterCmpLexicographic(xs[1..], ys[1..], cmp, k - 1);
    }
  }

  /** Every pair of sequences has a first difference. */
  lemma {:induction false} FirstDifferenceExists<X>(xs: seq<X>, ys: seq<X>, cmp: (X, X) -> Option<Ordering>)
    ensures exists k: nat :: FirstDifference(xs, ys, cmp, k)
  {
    if |xs| == 0 || |ys| == 0 || cmp(xs[0], ys[0]) != Some(Equal) {
      assert FirstDifference(xs, ys, cmp, 0);
    } else {
      FirstDifferenceExists(xs[1..], ys[1..], cmp);
      var k: nat :| FirstDifference(xs[1..], ys[1..], cmp, k);
      assert forall j :: 0 <= j < k ==> xs[1..][j] == xs[j + 1] && ys[1..][j] == ys[j + 1];
      assert FirstDifference(xs, ys, cmp, k + 1);
    }
  }

  /** With an element comparison that reverses when its arguments are
      swapped, so does the sequence comparison. */
  lemma {:induction false} IterCmpReverse<X>(xs: seq<X>, ys: seq<X>, cmp: (X, X) -> Option<Ordering>)
    requires forall x, y :: cmp(y, x) == ReverseOpt(cmp(x, y))
    ensures IterCmp(ys, xs, cmp) == ReverseOpt(IterCmp(xs, ys, cmp))
  {
    if |xs| > 0 && |ys| > 0 {
      IterCmpReverse(xs[1..], ys[1..], cmp);
    }
  }

  /** `PartialOrd<VecDeque<T>> for ArchivedVec<T>`. */
  function ArchivedCmpDeque<T>(av: seq<T>, d: VecDeque<T>, cmp: (T, T) -> Option<Ordering>): Option<Ordering>
    requires d.Valid()
  {
    IterCmp(av, Elements(d), cmp)
  }

  /** `PartialOrd<ArchivedVec<T>> for VecDeque<T>`. */
  function DequeCmpArchived<T>(d: VecDeque<T>, av: seq<T>, cmp: (T, T) -> Option<Ordering>): Option<Ordering>
    requires d.Valid()
  {
    IterCmp(Elements(d), av, cmp)
  }

  /** Comparing an archived vector with a deque is lexicographic over the
      deque's iteration order. */
  lemma ArchivedDequeCmp<T>(av: seq<T>, d: VecDeque<T>, cmp: (T, T) -> Option<Ordering>, k: nat)
    requires d.Valid()
    requires FirstDifference(av, Elements(d), cmp, k)
    ensures ArchivedCmpDeque(av, d, cmp) ==
      if k < |av| && k < d.len then cmp(av[k], Elements(d)[k]) else Some(CompareLengths(|av|, d.len))
  {
    IterCmpLexicographic(av, Elements(d), cmp, k);
  }

  /** With a dual element comparison, comparing the deque with the archived
      vector gives the reverse of the other direction. */
  lemma DequeCmpReversesArchived<T>(av: seq<T>, d: VecDeque<T>, cmp: (T, T) -> Option<Ordering>)
    requires d.Valid()
    requires forall x, y :: cmp(y, x) == ReverseOpt(cmp(x, y))
    ensures DequeCmpArchived(d, av, cmp) == ReverseOpt(ArchivedCmpDeque(av, d, cmp))
  {
    IterCmpReverse(av, Elements(d), cmp);
  }

  // ----- Deserialization -----

  /** Whether `Layout::array` accepts `n` elements of the given size and
      alignment: the total, rounded up to the alignment, may not exceed
      `isize::MAX`. */
  predicate ArrayLayoutFits(n: nat, elemSize: nat, elemAlign: nat, w: PointerWidth)
    requires 1 <= elemAlign <= IsizeMax(w)
  {
    elemSize == 0 || n <= (IsizeMax(w) - (elemAlign - 1)) / elemSize
  }

  datatype DeserializeError<E> = LayoutOverflow | ElementError(error: E)

  /** `VecDeque::from(Vec)`: the vector's buffer, used from slot 0. */
  function FromVec<T>(xs: seq<T>): (r: VecDeque<T>)
    ensures r.Valid() && Elements(r) == xs
  {
    VecDeque(xs, 0, |xs|)
  }

  /** `Deserialize<VecDeque<T>> for ArchivedVec`: the element array's layout
      is computed first and an overflow is an error; then every archived
      element is deserialized in order, the first failure aborting. */
  function Deserialize<A, T, E>(av: seq<A>, de: A -> Result<T, E>, elemSize: nat, elemAlign: nat, w: PointerWidth)
    : (r: Result<VecDeque<T>, DeserializeError<E>>)
    requires 1 <= elemAlign <= IsizeMax(w)
    ensures r.Ok? ==> r.value.Valid() && Pairwise(av, Elements(r.value), (a, t) => de(a) == Ok(t))
    ensures r == Err(LayoutOverflow) <==> !ArrayLayoutFits(|av|, elemSize, elemAlign, w)
    ensures r.Err? && r.error.ElementError? ==>
      exists i :: 0 <= i < |av| && de(av[i]) == Err(r.error.error)
                  && forall j :: 0 <= j < i ==> de(av[j]).Ok?
  {
    if !ArrayLayoutFits(|av|, elemSize, elemAlign, w) then Err(LayoutOverflow)
    else
      match TryMap(av, de)
      case Ok(xs) => Ok(FromVec(xs))
      case Err(e) => Err(ElementError(e))
  }

  /** Deque equality (`VecDeque`'s `PartialEq`): same elements in the same
      order, wherever they sit in the buffer. */
  ghost predicate SameDeque<T>(d1: VecDeque<T>, d2: VecDeque<T>)
    requires d1.Valid() && d2.Valid()
  {
    Elements(d1) == Elements(d2)
  }

  /** Serializing a deque and deserializing the archive gives back a deque
      with the same elements in the same order, provided each element
      deserializes back to itself and the deque's array layout fits (it does
      for any deque that exists in memory). */
  lemma RoundTrip<T, A, E>(d: VecDeque<T>, ser: T -> Result<A, E>, de: A -> Result<T, E>,
                               elemSize: nat, elemAlign: nat, w: PointerWidth)
    requires d.Valid() && 1 <= elemAlign <= IsizeMax(w)
    requires ArrayLayoutFits(d.len, elemSize, elemAlign, w)
    requires forall x :: ser(x).Ok? ==> de(ser(x).value) == Ok(x)
    requires SerializeFromSlice(Elements(d), ser).Ok?
    ensures Deserialize(SerializeFromSlice(Elements(d), ser).value, de, elemSize, elemAlign, w).Ok?
    ensures SameDeque(d, Deserialize(SerializeFromSlice(Elements(d), ser).value, de, elemSize, elemAlign, w).value)
  {
    var xs := Elements(d);
    assert SerializeFromSlice(xs, ser) == TryMap(xs, ser);
    var av := TryMap(xs, ser).value;
    assert forall i :: 0 <= i < |av| ==> de(av[i]) == Ok(xs[i]) by {
      forall i | 0 <= i < |av| ensures de(av[i]) == Ok(xs[i]) {
        assert ser(xs[i]) == Ok(av[i]);
      }
    }
    var r := TryMap(av, de);
    assert r.Ok?;
    assert r.value == xs;
  }

  // ----- The split deque of rkyv's `vecdeque` test -----

  function Range(lo: int, hi: int): (r: seq<int>)
    requires lo <= hi
    ensures |r| == hi - lo && forall i :: 0 <= i < |r| ==> r[i] == lo + i
  {
    seq(hi - lo, i => lo + i)
  }

  /** `for x in lo..hi { deque.push_back(x) }`. */
  function PushBackRange(d: VecDeque<int>, lo: int, hi: int): (r: VecDeque<int>)
    requires d.Valid() && lo <= hi && d.len + (hi - lo) <= d.Capacity()
    ensures r.Valid() && r.Capacity() == d.Capacity() && r.head == d.head
    ensures Elements(r) == Elements(d) + Range(lo, hi)
    decreases hi - lo
  {
    if lo == hi then d
    else
      var r := PushBackRange(PushBack(d, lo), lo + 1, hi);
      assert [lo] + Range(lo + 1, hi) == Range(lo, hi);
      r
  }

  /** `for x in (0..k).rev() { deque.push_front(x) }`. */
  function PushFrontDown(d: VecDeque<int>, k: nat): (r: VecDeque<int>)
    requires d.Valid() && d.len + k <= d.Capacity()
    ensures r.Valid() && r.Capacity() == d.Capacity() && r.len == d.len + k
    ensures r.head == if d.head >= k then d.head - k else d.head + d.Capacity() - k
    ensures Elements(r) == Range(0, k) + Elements(d)
    decreases k
  {
    if k == 0 then d
    else
      var d1 := PushFront(d, k - 1);
      var r := PushFrontDown(d1, k - 1);
      PushFrontDownStep(d, d1, r, k);
      r
  }

  lemma PushFrontDownStep(d: VecDeque<int>, d1: VecDeque<int>, r: VecDeque<int>, k: nat)
    requires d.Valid() && d1.Valid() && r.Valid() && 0 < k && d.len + k <= d.Capacity()
    requires d1.Capacity() == d.Capacity() && r.Capacity() == d.Capacity()
    requires d1.head == if d.head == 0 then d.Capacity() - 1 else d.head - 1
    requires Elements(d1) == [k - 1] + Elements(d)
    requires r.head == if d1.head >= k - 1 then d1.head - (k - 1) else d1.head + d.Capacity() - (k - 1)
    requires Elements(r) == Range(0, k - 1) + Elements(d1)
    ensures r.head == if d.head >= k then d.head - k else d.head + d.Capacity() - k
    ensures Elements(r) == Range(0, k) + Elements(d)
  {
    assert Range(0, k - 1) + [k - 1] == Range(0, k);
    assert Range(0, k - 1) + ([k - 1] + Elements(d)) == (Range(0, k - 1) + [k - 1]) + Elements(d);
  }

  /** The test's error type, `rancor::Failure`. */
  datatype Failure = Failure

  /** An `i32` archives as itself and cannot fail. */
  function ArchiveInt(x: int): Result<int, Failure>
  {
    Ok(x)
  }

  /** The deque of rkyv's `vecdeque` test: `k..n` pushed at the back and then
      `0..k` at the front of an empty deque with room for `cap` elements. */
  function SplitDeque(cap: nat, n: nat, k: nat): (d: VecDeque<int>)
    requires k <= n <= cap
    ensures d.Valid() && d.Capacity() == cap && d.len == n
    ensures d.head == if k == 0 then 0 else cap - k
    ensures Elements(d) == Range(0, k) + Range(k, n)
  {
    var empty := VecDeque(seq(cap, _ => 0), 0, 0);
    assert Elements(empty) == [];
    PushFrontDown(PushBackRange(empty, k, n), k)
  }

  /** That deque holds `0..n`, `as_slices` splits it into `0..k` and `k..n`,
      and it serializes to the archived run `0..n` (an integer archives as
      itself). */
  lemma SplitDequeSerializes(cap: nat, n: nat, k: nat)
    requires 1 <= k < n <= cap
    ensures Elements(SplitDeque(cap, n, k)) == Range(0, n)
    ensures AsSlices(SplitDeque(cap, n, k)) == (Range(0, k), Range(k, n))
    ensures SerializeFromSlice(Elements(SplitDeque(cap, n, k)), ArchiveInt) == Ok(Range(0, n))
  {
    var d := SplitDeque(cap, n, k);
    assert Range(0, k) + Range(k, n) == Range(0, n);
    var (a, b) := AsSlices(d);
    assert |a| == k;
    assert a == (a + b)[..k] && b == (a + b)[k..];
    assert (Range(0, k) + Range(k, n))[..k] == Range(0, k);
    assert (Range(0, k) + Range(k, n))[k..] == Range(k, n);
    var r := TryMap(Range(0, n), ArchiveInt);
    assert r.Ok?;
    assert r.value == Range(0, n);
  }
}
